=== FILE: README.md ===
# Edge dev server plugin: a Dafny model

This project models the core of a Vite plugin. During development the plugin runs a
Remix application inside a Miniflare (workerd) sandbox. It covers three parts:

- **The host middleware** (`vitePlugin/index.ts`).
  - It turns each Node request into a Fetch request and tags it with the handler
    entry (`x-vite-entry`).
  - It dispatches the request to the sandbox and reads the `x-request-bundle`
    header of the answer.
  - If the header is present, the sandbox could not import a package. The middleware
    walks up from the module path to the nearest `package.json`, adds the package's
    name to the process-wide `noExternal` set, and restarts the dev server. On restart
    the SSR configuration lists that set.
  - Otherwise the sandbox's response is written back to Node.
- **The fallback service** (`vitePlugin/unsafeModuleFallbackService.ts`). It
  normalises the specifier, referrer and written specifier. It then answers with one
  of:
  - a 301 redirect to a resolved path;
  - the bytes of a `.wasm` file;
  - the bundled ES module source.
- **The sandbox entry** (`vitePlugin/miniflare_module.ts`).
  - The `ImportError` class.
  - The error mapping of the module runner's inlined and external evaluators.
  - The `fetch` entry. It turns every failure into a 500 response. An `ImportError`
    response also carries its path in `x-request-bundle`.

The modules follow that structure:

- `Wrappers`: `Option` and `Result`.
- `Strings`: string helpers.
- `FetchHeaders`: the Fetch standard's `Headers` object, with `append`, `get` and
  `set` per section 5.1 of the WHATWG Fetch Standard.
- `NodePath`: Node's POSIX `path.dirname`.
- `PackageName`: `getPackageName`.
- `WireAdapter`: `toRequest` and `toResponse`.
- `Protocol`: the two header names.
- `Convergence`: the middleware and the `noExternal` set.
- `FallbackService`: the fallback service.
- `ModuleRunner`: the sandbox entry.
- `Escalation`: the protocol between the two sides.

Everything outside this logic is a parameter of the model. That covers the
filesystem, the `package.json` contents, the URL parser, Vite's resolver,
`require.resolve`, esbuild, module evaluation and import, and the sandbox dispatch.
Each is a function-typed field or argument.

The code and the written design disagree in one place, and the model follows the
code. When bundling fails, the fallback service logs the error and still answers
200 with a JSON body that lacks `esModule`. It does not answer with a diagnostic
status (`unsafeModuleFallbackService.ts:112-122`; see `FallbackService.BundleBranch`).

## Model

| member | source | states |
|---|---|---|
| FetchHeaders.Append | vitePlugin/index.ts:113-115 | `headers.append` adds the value after all earlier values for the lower-cased name, and leaves every other name's values unchanged |
| FetchHeaders.Get | vitePlugin/index.ts:63 | `headers.get` returns null exactly when no entry has the lower-cased name, and returns the single value when there is one |
| FetchHeaders.Set | vitePlugin/index.ts:58-61 | after `headers.set`, the lower-cased name has exactly the one value set, and every other name's values are unchanged |
| NodePath.Dirname | vitePlugin/index.ts:18 | `path.dirname` never returns "". It returns ".", "/" or a strict prefix of its argument |
| NodePath.DirnameClimbs | vitePlugin/index.ts:25 | each step up the tree either stays at a fixed point of `dirname` or strictly lowers a well-founded measure |
| NodePath.DirnameChild | vitePlugin/index.ts:18 | `dirname` undoes a join: for a directory d that does not end in "/" and a name without "/", `dirname(d + "/" + name)` is d |
| NodePath.DirnameRootChild | vitePlugin/index.ts:18 | a name directly below the root has "/" as its directory |
| NodePath.DirnameOfPlainName | vitePlugin/index.ts:18 | a path without any "/" has "." as its directory |
| PackageName.WalkUp | vitePlugin/index.ts:19-30 | the loop never ends by reaching the root. A name it reports is the `name` field of some directory's package.json |
| PackageName.GetPackageNameAsWritten | vitePlugin/index.ts:16-31 | the lookup as written: the first directory consulted is the specifier's dirname, and a manifest there decides the answer |
| PackageName.GetPackageName | vitePlugin/index.ts:16-31 | the corrected lookup never spins. It agrees with the code wherever the code returns, and answers null where the code would loop forever |
| PackageName.WalkUpNearest | vitePlugin/index.ts:19-24 | the nearest package.json decides: after k manifest-less steps that avoid the working directory, the k-th ancestor's manifest is the answer |
| PackageName.CwdManifestNeverRead | vitePlugin/index.ts:25-28 | when the walk climbs, without meeting a manifest, to the directory whose path string equals the working directory's, it answers null without consulting that directory's package.json. This holds for the path spelled as `process.cwd()` spells it, which for absolute module paths is the working directory |
| PackageName.WalkUpTerminatesUnderCwd | vitePlugin/index.ts:19-30 | when the working directory is a proper ancestor of the start, the loop as written returns |
| PackageName.RelativeSpecifierReadsDot | vitePlugin/index.ts:18-23 | a specifier without "/" (such as "node:fs") starts the walk at ".", so the package.json found under "." (the working directory's own, once the filesystem resolves it) answers, in both versions of the lookup |
| PackageName.SpinsOutsideCwd | vitePlugin/index.ts:25-29 | for the module "/tmp/x.js", working directory "/proj" and no manifests, the code as written loops forever, while the corrected lookup answers null |
| WireAdapter.OriginRule | vitePlugin/index.ts:104-107 | the base URL is the Origin header when it is non-empty and not "null"; otherwise it is "http://" followed by the Host header |
| WireAdapter.AppendEach | vitePlugin/index.ts:112-113 | appending an array value's elements one by one adds them, in order, under the lower-cased name only |
| WireAdapter.FlattenHeaders | vitePlugin/index.ts:110-120 | for every name, the flattened Fetch headers hold exactly the values of the host headers whose key lower-cases to it, in key order and element order |
| WireAdapter.FlattenReadBack | vitePlugin/index.ts:110-120 | `get` on the flattened headers returns the host values for that name joined by ", " |
| WireAdapter.ToRequest | vitePlugin/index.ts:103-133 | a URL the parser rejects is an error. A parsed URL with a username or password is an error next, and then a CONNECT, TRACE or TRACK method in any letter case; `new Request` refuses both. Otherwise the request has the parsed URL, the method, and exactly the flattened host headers. The body and half duplex are attached exactly when the method is neither GET nor HEAD |
| WireAdapter.ToResponseAsWritten | vitePlugin/index.ts:139-141 | as written, status and body are copied and a non-empty status text becomes the status message (an empty one leaves Node's default phrase), but the header list handed to `writeHead` is empty |
| WireAdapter.ToResponseDropsLocation | vitePlugin/index.ts:141 | a 302 whose Location is "/login" reaches Node with no Location header |
| WireAdapter.ToResponse | vitePlugin/index.ts:135-151 | the corrected `toResponse` copies the status, a non-empty status text (an empty one leaves Node's default phrase), and every header name's values. Node's sink gets a body exactly when the Fetch response has one |
| Convergence.Add | vitePlugin/index.ts:77 | `Set.add` keeps the elements distinct and adds exactly the name. A new name goes at the end and earlier entries keep their places; a present name changes nothing |
| Convergence.Config | vitePlugin/index.ts:91-97 | the SSR configuration targets "webworker" and lists each member of the set exactly once |
| Convergence.NormalizeBundlePath | vitePlugin/index.ts:65-71 | one leading "file://" is removed, and on Windows one further leading "/". On Windows a "file://" not followed by "/" loses just the "file://". Otherwise the path is unchanged |
| Convergence.EscalationPath | vitePlugin/index.ts:63-64 | the middleware escalates exactly when the response has an `x-request-bundle` header with a non-empty value, which is then the path |
| Convergence.Prepare | vitePlugin/index.ts:57-61 | the prepared request exists exactly when `toRequest` succeeds, with `toRequest`'s error otherwise. It keeps `toRequest`'s URL, method and body, its `x-vite-entry` holds exactly the handler entry (replacing any the client sent), and every other header name holds exactly the host's values |
| Convergence.PackageOf | vitePlugin/index.ts:16-31 | the lookup the middleware runs: the code as written in the `AsWritten` revision and the corrected lookup in the `Corrected` one, on the normalised bundle path. Wherever it returns it gives the corrected lookup's answer, a found package is always the same in both, and only the code as written can spin |
| Convergence.Escalate | vitePlugin/index.ts:72-83 | a usable (non-empty) package name restarts with exactly that name added in automatic mode, and is reported with a header-less 500 in manual mode. The request goes to `next` exactly when the lookup returns without a usable name: with the manifest's parse error or "No package name found". It hangs exactly when the lookup spins. Only a restart changes the set |
| Convergence.Forward | vitePlugin/index.ts:84 | the response written to Node keeps the sandbox's status and body, and its status text when non-empty (Node's default phrase otherwise). The corrected `toResponse` keeps every header's value, while the code as written writes none |
| Convergence.React | vitePlugin/index.ts:63-84 | a response with no escalation signal is forwarded and the set is unchanged. A signalled one is answered by `Escalate` on the signalled path, and a restart adds exactly a declared non-empty package name |
| Convergence.Handle | vitePlugin/index.ts:55-88 | one pass of the middleware restarts only in automatic mode, only for a declared non-empty package name, and changes the set only by adding that name. A request `toRequest` refuses goes to `next` with that error, and so does a failed dispatch with its message; the set is then unchanged |
| Convergence.HandleReacts | vitePlugin/index.ts:57-84 | once the request is prepared and dispatched, the middleware answers as `React` does on the sandbox's response |
| Convergence.ManualModeReports | vitePlugin/index.ts:82-83 | in manual mode an escalation for package P is answered 500 with the text "Add 'P' to noExternal", and the set is unchanged |
| Convergence.CorrectedNeverHangs | vitePlugin/index.ts:55-88 | with the corrected lookup the middleware always reaches an answer |
| Convergence.AsWrittenHangs | vitePlugin/index.ts:19-30 | as written, an escalation for "/tmp/x.js" with working directory "/proj" and no package.json hangs the middleware |
| Convergence.Session | vitePlugin/index.ts:33-38 | across any number of requests, the process-wide set stays duplicate-free, with one outcome per request |
| Convergence.SessionHangAbsorbs | vitePlugin/index.ts:16-31 | the lookup is synchronous, so once one request hangs every later request of the session hangs too |
| Convergence.SessionHangKeepsSet | vitePlugin/index.ts:16-31 | after a hang the set is the one the requests before the hang left |
| Convergence.HandleExtends | vitePlugin/index.ts:76-80 | one pass only ever extends the set: earlier names keep their positions and no member is lost |
| Convergence.SessionMonotonic | vitePlugin/index.ts:33-38 | the set only grows over a session, because the global survives restarts |
| Convergence.HandleWithin | vitePlugin/index.ts:72-77 | every name one pass adds is a name some package.json declares |
| Convergence.SessionWithin | vitePlugin/index.ts:72-77 | every name a session adds is a declared package name |
| Convergence.SessionBounded | vitePlugin/index.ts:33-38 | the set never holds more than its initial members plus the names some package.json declares |
| Convergence.SessionGrowth | vitePlugin/index.ts:76-80 | over a session the set grows by exactly one entry for each pass whose restart added a new name, and by nothing otherwise |
| Convergence.GrowthsBounded | vitePlugin/index.ts:33-38 | convergence: whatever the requests, the number of restarts that grow the set is at most the number of declared package names not already in it |
| FallbackService.GetNormalPath | vitePlugin/unsafeModuleFallbackService.ts:11-29 | a null or empty input is "specifier is required". Otherwise the result is a suffix of the input, and the removed prefix is one of "/", "file:", a Windows "/", or a combination of them in that order. Away from Windows the result is exact: after a leading "/" goes, one "file:" goes if it follows; otherwise one leading "file:" goes. So "file:///x" gives "///x" and "//x" gives "/x" |
| FallbackService.NormalPathOnWindows | vitePlugin/unsafeModuleFallbackService.ts:23-27 | on Windows the normaliser fails exactly when it fails elsewhere, and otherwise removes at most one more leading "/" from the result it gives elsewhere |
| FallbackService.NormalPathRoundTrip | vitePlugin/unsafeModuleFallbackService.ts:15-28 | the partner of `getNormalPath`: a path that does not itself start with "/" or "file:", behind any prefix it may strip, comes back exactly |
| FallbackService.StripsEachOnce | vitePlugin/unsafeModuleFallbackService.ts:17-27 | each prefix is removed at most once: "/file:" + s gives s even when s starts with "/" or "file:", and so does "/file:/" + s on Windows |
| FallbackService.SlashNormalisesToEmpty | vitePlugin/unsafeModuleFallbackService.ts:17-19 | "/" normalises to "" |
| FallbackService.ResolveSpecifier | vitePlugin/unsafeModuleFallbackService.ts:45-61 | the second pass fails with "specifier is required" exactly on "" and, on Windows, on "/". Otherwise the result is a suffix whose removed prefix is a Windows "/", "file:", a Windows "/", or a combination in that order; away from Windows exactly one leading "file:" goes |
| FallbackService.SpecifierOnWindows | vitePlugin/unsafeModuleFallbackService.ts:45-61 | on Windows the second pass fails exactly when nothing is left after one leading "/" goes; otherwise it gives the off-Windows result for that remainder, less at most one more leading "/". So "file:file:x" gives "file:x" |
| FallbackService.SpecifierRoundTrip | vitePlugin/unsafeModuleFallbackService.ts:45-61 | the partner of the second pass: a non-empty specifier that does not itself start with "/" or "file:", behind any prefix the pass may strip, comes back exactly |
| FallbackService.FirstVersionQuery | vitePlugin/unsafeModuleFallbackService.ts:72 | finds the leftmost position where `/\?v=.+$/` matches, or reports that it matches nowhere |
| FallbackService.StripVersionQuery | vitePlugin/unsafeModuleFallbackService.ts:72 | the result is a prefix of the id. It is the whole id exactly when the pattern matches nowhere; otherwise it ends at the leftmost match |
| FallbackService.RedirectTarget | vitePlugin/unsafeModuleFallbackService.ts:64-76 | `import` never fails: it answers "" when Vite finds nothing, and otherwise the resolved id with its version query removed. Any other method fails exactly when `require.resolve` does, and otherwise gives its path with each backslash turned into "/" and every other character kept |
| FallbackService.ToNumbers | vitePlugin/unsafeModuleFallbackService.ts:88 | `Array.from` of the file gives one number in 0..255 per byte |
| FallbackService.WasmRoundTrip | vitePlugin/unsafeModuleFallbackService.ts:86-88 | reading the `wasm` array back as bytes gives exactly the file's contents |
| FallbackService.Normalize | vitePlugin/unsafeModuleFallbackService.ts:39-61 | normalisation succeeds exactly when all three parameters and the second pass succeed, and its fields are their results. Any failure is "specifier is required" |
| FallbackService.SpecifierStripsTwoSchemes | vitePlugin/unsafeModuleFallbackService.ts:40-56 | away from Windows the two passes together remove a leading "/" and two "file:" prefixes: "/file:file:x" is looked up as "x" |
| FallbackService.Answer | vitePlugin/unsafeModuleFallbackService.ts:63-122 | on a normalised request, every redirect location starts with "/", and a `.wasm` or module reply carries the requested specifier minus its first character as its name |
| FallbackService.Serve | vitePlugin/unsafeModuleFallbackService.ts:35-122 | a request whose parameters normalise to nothing is refused with "specifier is required" before any filesystem call. Otherwise the normalised request is answered, with a non-empty specifier, and every redirect location starts with "/" |
| FallbackService.RedirectBranch | vitePlugin/unsafeModuleFallbackService.ts:63-83 | a non-relative written specifier whose file does not exist is answered with the 301 to "/" plus the resolved path, or the resolver's error |
| FallbackService.RedirectOnlyWhenMissing | vitePlugin/unsafeModuleFallbackService.ts:63-64 | a redirect or a resolver failure happens only when the written specifier is not relative and the file is missing |
| FallbackService.RelativeNeverRedirects | vitePlugin/unsafeModuleFallbackService.ts:63 | a written specifier starting "./" or "/" is never redirected |
| FallbackService.WasmBranch | vitePlugin/unsafeModuleFallbackService.ts:85-90 | an unredirected `.wasm` request is answered with the file's bytes under the specifier minus its first character, and those bytes read back exactly |
| FallbackService.BundleBranch | vitePlugin/unsafeModuleFallbackService.ts:92-122 | anything else is bundled, and the first output file becomes `esModule`. A failed build is answered without `esModule` |
| ModuleRunner.ImportErrorShape | vitePlugin/miniflare_module.ts:19-29 | an `ImportError` is named "ImportError", its message is its path, and `getPath()` returns the path |
| ModuleRunner.ImportErrorText | vitePlugin/miniflare_module.ts:19-25 | `String(new ImportError(p))` is "ImportError: " followed by p, from which p reads back; for an empty p it is "ImportError" |
| ModuleRunner.MapInlinedError | vitePlugin/miniflare_module.ts:59-65 | the result is an `ImportError` exactly when the thrown value is one, and then it is unchanged. An `Error` with a stack becomes the string of the stack; every other value, an `Error` without a stack included, is rethrown unchanged |
| ModuleRunner.LookupAt | vitePlugin/miniflare_module.ts:58 | with distinct keys, `context[key]` for the i-th key is the i-th value |
| ModuleRunner.WrapperAligned | vitePlugin/miniflare_module.ts:52-58 | the wrapper's parameter list reads back as the keys, and its i-th argument is the value under the i-th key |
| ModuleRunner.RunInlinedModule | vitePlugin/miniflare_module.ts:51-67 | a compile error from `eval` escapes as it is, with nothing exported. Otherwise the wrapper runs on the context's values in key order, the exports are frozen exactly when the call threw nothing, and what it threw passes through the error mapping |
| ModuleRunner.CompileErrorEscapesUnmapped | vitePlugin/miniflare_module.ts:53-65 | an `Error` with a stack escapes unchanged when `eval` throws it, but becomes the string of its stack when the call rejects with it |
| ModuleRunner.RunExternalModule | vitePlugin/miniflare_module.ts:68-73 | a failed import is `ImportError` for exactly the attempted path. Otherwise the namespace is merged with its `default`, whose keys win |
| ModuleRunner.FailureResponse | vitePlugin/miniflare_module.ts:94-106 | every failure is a 500 whose body is `String(e)`. `x-request-bundle` reads as the path exactly for an `ImportError` and is absent otherwise |
| ModuleRunner.FailureHeaders | vitePlugin/miniflare_module.ts:96-105 | the two failure header lists read back the path, or nothing, under `x-request-bundle` |
| ModuleRunner.FetchAsWritten | vitePlugin/miniflare_module.ts:80-107 | as written, a load or handler failure before `return` is caught, but a rejected handler promise makes the entry reject |
| ModuleRunner.RejectionEscapes | vitePlugin/miniflare_module.ts:89-93 | a handler whose promise rejects with an `ImportError` makes the entry as written reject instead of answering |
| ModuleRunner.Fetch | vitePlugin/miniflare_module.ts:80-107 | with the promise awaited, every failure (before or after settling) is answered by the catch's 500, and a returned response is passed through |
| ModuleRunner.FetchAgreesWhenResponding | vitePlugin/miniflare_module.ts:83-106 | where the entry as written responds, the corrected entry responds the same. Where it rejects, the corrected entry answers the catch's 500 |
| ModuleRunner.MissingHandlerIsPlain500 | vitePlugin/miniflare_module.ts:84-87 | a module without a default export or without `fetch` is answered with a 500 carrying no escalation header |
| ModuleRunner.ExternalImportFailureEscalates | vitePlugin/miniflare_module.ts:68-71 | a failed external import survives the inlined error mapping and reaches the client as `x-request-bundle` for the attempted path |
| Escalation.FailureSignalsIff | vitePlugin/miniflare_module.ts:95-105 | the host sees an escalation in a failure response exactly when the failure was an `ImportError` with a non-empty path, and the path is that path |
| Escalation.FetchSignals | vitePlugin/miniflare_module.ts:83-106 | from the corrected entry, the handler's own response decides the escalation. Otherwise it escalates exactly for an `ImportError` with a non-empty path |
| Escalation.ImportFailureRestarts | vitePlugin/index.ts:63-80 | in automatic mode, an `ImportError` for a path whose nearest manifest names P restarts with P added, and the next configuration lists P |
| Escalation.OtherFailuresForwarded | vitePlugin/index.ts:84 | any other sandbox failure is forwarded as a 500, and the set is unchanged |
| Escalation.RoundTrip | vitePlugin/index.ts:55-80 | a request whose dispatch answers with the sandbox's `ImportError` restarts the server with the package added to the configuration |
| Escalation.SecondEscalationKeepsSet | vitePlugin/index.ts:77 | a second escalation for an already-added package leaves the set as it is |

## Left out

- Streaming bodies are not modelled: `Readable.from`, `pipe` and `await once(readable, "end")`. A body is a finished byte sequence or text.
- Request body streaming and duplex semantics are not modelled beyond the flag.
- `path.dirname` is modelled with POSIX semantics only. Win32 drive letters and backslash separators are not modelled. The Windows-specific "/" stripping is modelled through an `isWindows` flag.
- Fetch header value normalisation and name validation are not modelled: whitespace trimming and the `TypeError` on invalid bytes. Header names are lower-cased ASCII only.
- `new URL(input, base)` is a parameter (`UrlParser`), because the WHATWG URL parser is out of scope. It yields the serialised URL and its username and password, which is what `new Request` inspects.
- The fallback service's `new URL(request.url)` and `searchParams.get` are not modelled. The request is given as its decoded header and parameters.
- esbuild is a parameter (`Host.build`), so its options and the `createRequire` banner are not modelled.
- JSON encoding of replies is not modelled. Replies are datatypes.
- `String(v)` of a thrown non-Error value is given as text.
- Vite's module runner internals are not modelled: the `fetchModule` transport, the module graph and caching. The model assumes the runner propagates evaluator errors unchanged.
- `createMiniflare`, `dispose` on exit, and the watcher that restarts when `miniflare_module.ts` changes are not modelled.
- The `preTransformRequests` guard and console logging are not modelled.
- Requests are handled one after another: a `Session` dispatches each against the configuration its predecessors left. Node can have several requests in flight at once, and their interleaving is not modelled.
- `viteDevServer.restart()` is the `Restart` outcome. The restarted server's behaviour is the same model applied with the updated set.
- `next(error)` is the `Next` outcome with a classified error. The error object's text is not modelled.
- Node's reason-phrase table is a parameter (`ReasonPhrases`).
- FetchHeaders.Get: the contract states the value only when one entry matches. The joined value for several entries is stated by `WireAdapter.FlattenReadBack`.
- Convergence.Handle: the contract states the set-update facts and the two `next` cases. The full answer after a successful dispatch is stated by `Convergence.HandleReacts` and `Convergence.React`.
- FallbackService.Serve: the contract states the refusal, the hand-over to `Answer` and the redirect shape. Each branch's answer is stated by the `*Branch` lemmas about `Answer`.
- `new Request` upper-cases the standard method names and refuses methods that are not HTTP tokens. The model passes the method through unchanged. Node's HTTP parser only admits token methods, and only the CONNECT/TRACE/TRACK refusal is modelled.
- The package-name walk asks the filesystem (`Manifests`) by path string. The filesystem resolves a relative directory such as "." against the working directory, and the model leaves that resolution to the oracle, so "." and the working directory's absolute path are separate keys.
- `toResponse(response, res)` is called without `await` at `index.ts:84`, so a failure while piping the body escapes the middleware's `try`. This is not modelled, and neither is streaming.
- A throw from `runner.dispatchFetch` is the `DispatchFailed` outcome. The sandbox's internal failure modes are not modelled.
- The middleware runs either the code as written or the corrected code, as selected by `Revision`. A lookup that spins blocks Node's single event loop, so the whole dev server stops answering. This is the `Hang` outcome, and a `Session` answers `Hang` from that request on.
- PackageName.GetPackageNameAsWritten: a non-terminating loop cannot be a Dafny function, so the infinite loop is modelled as the `Spins` outcome at the `dirname` fixed point.

## Findings

| source | as written | input that shows it | evidently intended | confidence | as-written member | corrected member |
|---|---|---|---|---|---|---|
| vitePlugin/index.ts:141 | `Object.entries(res.headers.entries())` enumerates an iterator's own properties, which are none, so `writeHead` gets no headers | a sandbox 302 with `Location: /login` (`WireAdapter.ToResponseDropsLocation`) | every Fetch response header is copied to Node | not executed | WireAdapter.ToResponseAsWritten | WireAdapter.ToResponse |
| vitePlugin/miniflare_module.ts:89-93 | `return result;` inside `try` hands back the handler's promise unawaited, so its rejection escapes the `catch` | a handler whose promise rejects with `ImportError(p)` (`ModuleRunner.RejectionEscapes`) | the rejection is caught and answered with the 500 carrying `x-request-bundle: p` | not executed | ModuleRunner.FetchAsWritten | ModuleRunner.Fetch |
| vitePlugin/index.ts:19-30 | the loop stops only at a manifest or when the next parent equals `process.cwd()`, so at the root (`dirname("/") == "/"`) it repeats forever on the event loop, so the dev server answers neither that request nor any later one | module "/tmp/x.js", working directory "/proj", no package.json (`PackageName.SpinsOutsideCwd`, `Convergence.AsWrittenHangs`) | the walk stops at the top of the tree and answers null | not executed | PackageName.GetPackageNameAsWritten | PackageName.GetPackageName |

=== FILE: convergence.dfy ===
/**
  The dev-server middleware and plugin config of vitePlugin/index.ts: each request
  is translated, dispatched into the sandbox, and either forwarded or, when the
  sandbox asks for a module to be bundled, answered by growing the process-wide
  noExternal set and restarting.
*/
module Convergence {
  import opened Wrappers
  import opened Strings
  import opened FetchHeaders
  import opened WireAdapter
  import opened PackageName
  import opened Protocol

  /** `globalThis.__noExternalModules`: a JavaScript `Set`, so distinct and insertion-ordered. */
  datatype NoExternalSet = NoExternalSet(order: seq<string>)

  predicate Valid(s: NoExternalSet) {
    forall i, j :: 0 <= i < j < |s.order| ==> s.order[i] != s.order[j]
  }

  function Members(s: NoExternalSet): set<string> {
    set i | 0 <= i < |s.order| :: s.order[i]
  }

  /** `r` keeps every entry of `s`, in place, possibly followed by more. */
  predicate Extends(s: NoExternalSet, r: NoExternalSet) {
    |s.order| <= |r.order| && r.order[..|s.order|] == s.order
  }

  /** The set created on first load of the plugin. */
  const InitialSet := NoExternalSet([])

  /** `Set.prototype.add`: a new name goes to the end; a present one changes nothing. */
  function Add(s: NoExternalSet, name: string): (r: NoExternalSet)
    requires Valid(s)
    ensures Valid(r)
    ensures Members(r) == Members(s) + {name}
    ensures Extends(s, r)
    ensures name in Members(s) <==> r == s
    ensures name !in Members(s) ==> r.order == s.order + [name]
  {
    if name in s.order then s
    else
      var r := NoExternalSet(s.order + [name]);
      assert r.order[..|s.order|] == s.order;
      assert Members(r) == Members(s) + {name} by {
        forall x | x in Members(r) ensures x in Members(s) + {name} {
          var i :| 0 <= i < |r.order| && r.order[i] == x;
          if i < |s.order| { assert s.order[i] == x; }
        }
        forall x | x in Members(s) + {name} ensures x in Members(r) {
          if x == name { assert r.order[|s.order|] == x; }
          else { var i :| 0 <= i < |s.order| && s.order[i] == x; assert r.order[i] == x; }
        }
      }
      r
  }

  /** The part of the plugin's `config` hook this model reads: `ssr.target` and `ssr.noExternal`. */
  datatype SsrConfig = SsrConfig(target: string, noExternal: seq<string>)

  /** `config`: `ssr.noExternal` lists exactly the set's names, once each, in insertion order. */
  function Config(s: NoExternalSet): (c: SsrConfig)
    requires Valid(s)
    ensures c.target == "webworker"
    ensures forall x :: x in c.noExternal <==> x in Members(s)
    ensures forall i, j :: 0 <= i < j < |c.noExternal| ==> c.noExternal[i] != c.noExternal[j]
  {
    SsrConfig("webworker", s.order)
  }

  /**
    Which host-side code the middleware runs: the source as written, or with the
    two host-side corrections listed under Findings (the package lookup stops at
    the top of the directory tree; `toResponse` hands the headers over).
  */
  datatype Revision = AsWritten | Corrected

  /**
    The plugin's view of its surroundings. `dispatch` is `runner.dispatchFetch`
    against a sandbox built from the given config; a rejection carries its message.
  */
  datatype DevServer = DevServer(
    revision: Revision,
    autoNoExternal: bool,
    isWindows: bool,
    cwd: string,
    entry: string,
    manifests: Manifests,
    parseUrl: UrlParser,
    reasons: ReasonPhrases,
    dispatch: (SsrConfig, SandboxRequest) -> Result<SandboxResponse, string>)

  /** The errors the middleware hands to `next(error)`. */
  datatype MiddlewareError =
    | BadRequest(cause: AdapterError)
    | DispatchFailed(message: string)
    | ManifestUnparsable(dir: string)
    | NoPackageName

  /** What one pass through the middleware does with the Node request. */
  datatype Outcome =
    | Respond(response: HostResponse)  // a response written to the Node sink
    | Restart(package: string)         // the set grew (or stayed); the dev server restarts
    | Next(error: MiddlewareError)     // `next(error)`
    | Hang                             // the lookup spins on the event loop; the server answers nothing more

  /**
    The module path in an escalation header: one leading "file://" removed, and on
    Windows one further leading "/".
  */
  function NormalizeBundlePath(p: string, isWindows: bool): (r: string)
    ensures |r| <= |p| && r == p[|p| - |r|..]
    ensures !isWindows && StartsWith(p, "file://") ==> "file://" + r == p
    ensures !isWindows && !StartsWith(p, "file://") ==> r == p
    ensures isWindows && StartsWith(p, "file:///") ==> "file:///" + r == p
    ensures isWindows && StartsWith(p, "file://") && !StartsWith(p, "file:///") ==> "file://" + r == p
    ensures isWindows && !StartsWith(p, "file://") && FirstIs(p, '/') ==> "/" + r == p
    ensures isWindows && !StartsWith(p, "file://") && !FirstIs(p, '/') ==> r == p
  {
    var afterScheme := if StartsWith(p, "file://") then DropPrefix(p, 7) else p;
    if isWindows && FirstIs(afterScheme, '/') then DropPrefix(afterScheme, 1) else afterScheme
  }

  /** The escalation signal: a non-empty `x-request-bundle` header (an empty one is falsy). */
  function EscalationPath(response: SandboxResponse): (r: Option<string>)
    ensures r.Some? <==> Get(response.headers, BundleHeader).Some? && Get(response.headers, BundleHeader).value != ""
    ensures r.Some? ==> r == Get(response.headers, BundleHeader)
  {
    match Get(response.headers, BundleHeader)
    case Some(v) => if v != "" then Some(v) else None
    case None => None
  }

  /**
    The request handed to the sandbox: `toRequest` plus the entry header, which
    replaces any `x-vite-entry` the client sent; everything else is `toRequest`'s.
  */
  function Prepare(dev: DevServer, req: HostRequest): (r: Result<SandboxRequest, AdapterError>)
    ensures r.Success? <==> ToRequest(req, dev.parseUrl).Success?
    ensures r.Failure? ==> r.error == ToRequest(req, dev.parseUrl).error
    ensures r.Success? ==>
      var plain := ToRequest(req, dev.parseUrl).value;
      && r.value.url == plain.url
      && r.value.verb == req.verb
      && r.value.body == plain.body
      && r.value.halfDuplex == plain.halfDuplex
      && Get(r.value.headers, EntryHeader) == Some(dev.entry)
      && Matching(r.value.headers, EntryHeader) == [dev.entry]
      && (forall k :: k != EntryHeader ==> Matching(r.value.headers, k) == HostValues(req.headers, k))
  {
    match ToRequest(req, dev.parseUrl)
    case Failure(e) => Failure(e)
    case Success(request) =>
      EntryHeaderIsLower();
      SetThenGet(request.headers, EntryHeader, dev.entry);
      Success(request.(headers := Set(request.headers, EntryHeader, dev.entry)))
  }

  /** The message sent when automatic inlining is off. */
  function AddToNoExternalMessage(name: string): string {
    "Add '" + name + "' to noExternal"
  }

  /**
    `getPackageName(normalPath)` in the given revision. As written it may spin;
    wherever it returns, both revisions give the corrected lookup's answer.
  */
  function PackageOf(dev: DevServer, bundle: string): (r: Lookup)
    ensures r.Found? ==> exists d :: dev.manifests(d) == Some(Manifest(r.name))
    ensures r != Spins ==> r == GetPackageName(NormalizeBundlePath(bundle, dev.isWindows), dev.cwd, dev.manifests)
    ensures GetPackageName(NormalizeBundlePath(bundle, dev.isWindows), dev.cwd, dev.manifests).Found? ==>
      r == GetPackageName(NormalizeBundlePath(bundle, dev.isWindows), dev.cwd, dev.manifests)
    ensures r == Spins ==> dev.revision == AsWritten
    ensures dev.revision == AsWritten ==>
      r == GetPackageNameAsWritten(NormalizeBundlePath(bundle, dev.isWindows), dev.cwd, dev.manifests)
    ensures dev.revision == Corrected ==>
      r == GetPackageName(NormalizeBundlePath(bundle, dev.isWindows), dev.cwd, dev.manifests)
  {
    var path := NormalizeBundlePath(bundle, dev.isWindows);
    match dev.revision
    case AsWritten => GetPackageNameAsWritten(path, dev.cwd, dev.manifests)
    case Corrected => GetPackageName(path, dev.cwd, dev.manifests)
  }

  /** Whether a lookup yields a usable package name: `!packageName` is false. */
  predicate NamesPackage(l: Lookup) {
    l.Found? && l.name.Some? && l.name.value != ""
  }

  /**
    The reaction to an escalation naming module path `bundle`. A usable name
    restarts in automatic mode and is reported in manual mode; a lookup that
    finds no usable name is an error for `next`; a lookup that never returns
    leaves the request unanswered.
  */
  function Escalate(dev: DevServer, bundle: string, s: NoExternalSet): (r: (Outcome, NoExternalSet))
    requires Valid(s)
    ensures r.0.Restart? ==> dev.autoNoExternal && r.0.package != "" && r.1 == Add(s, r.0.package)
    ensures r.0.Restart? ==> exists d :: dev.manifests(d) == Some(Manifest(Some(r.0.package)))
    ensures !r.0.Restart? ==> r.1 == s
    ensures r.0.Respond? ==> r.0.response.headers == []
    ensures NamesPackage(PackageOf(dev, bundle)) && dev.autoNoExternal ==>
      r == (Restart(PackageOf(dev, bundle).name.value), Add(s, PackageOf(dev, bundle).name.value))
    ensures NamesPackage(PackageOf(dev, bundle)) && !dev.autoNoExternal ==> r.0.Respond? && r.0.response.status == 500
    ensures r.0.Hang? <==> PackageOf(dev, bundle) == Spins
    ensures r.0.Next? <==> PackageOf(dev, bundle) != Spins && !NamesPackage(PackageOf(dev, bundle))
    ensures r.0.Next? ==> r.0.error == (if PackageOf(dev, bundle).ParseError? then ManifestUnparsable(PackageOf(dev, bundle).dir) else NoPackageName)
  {
    match PackageOf(dev, bundle)
    case Spins => (Hang, s)
    case ParseError(dir) => (Next(ManifestUnparsable(dir)), s)
    case Found(Some(name)) =>
      if name == "" then (Next(NoPackageName), s)
      else if dev.autoNoExternal then (Restart(name), Add(s, name))
      else
        var message := AddToNoExternalMessage(name);
        (Respond(HostResponse(500, dev.reasons(500), [], Some(Text(message)))), s)
    case _ => (Next(NoPackageName), s)
  }

  /** `toResponse(response, res)` in the given revision. */
  function Forward(dev: DevServer, response: SandboxResponse): (r: HostResponse)
    ensures r.status == response.status && r.body == response.body
    ensures response.statusText != "" ==> r.statusMessage == response.statusText
    ensures response.statusText == "" ==> r.statusMessage == dev.reasons(response.status)
    ensures dev.revision == Corrected ==> forall name :: Get(r.headers, name) == Get(response.headers, name)
    ensures dev.revision == AsWritten ==> r.headers == []
  {
    match dev.revision
    case AsWritten => ToResponseAsWritten(response, dev.reasons)
    case Corrected => ToResponse(response, dev.reasons)
  }

  /** The middleware's reaction to the sandbox's response. */
  function React(dev: DevServer, response: SandboxResponse, s: NoExternalSet): (r: (Outcome, NoExternalSet))
    requires Valid(s)
    ensures r.0.Restart? ==> dev.autoNoExternal && r.0.package != "" && r.1 == Add(s, r.0.package)
    ensures r.0.Restart? ==> exists d :: dev.manifests(d) == Some(Manifest(Some(r.0.package)))
    ensures !r.0.Restart? ==> r.1 == s
    ensures EscalationPath(response).None? ==> r == (Respond(Forward(dev, response)), s)
    ensures EscalationPath(response).Some? ==> r == Escalate(dev, EscalationPath(response).value, s)
  {
    match EscalationPath(response)
    case None => (Respond(Forward(dev, response)), s)
    case Some(bundle) => Escalate(dev, bundle, s)
  }

  /**
    One pass through the middleware, with the noExternal set before and after.
    The set only ever grows, and only by the package a restart names.
  */
  function Handle(dev: DevServer, req: HostRequest, s: NoExternalSet): (r: (Outcome, NoExternalSet))
    requires Valid(s)
    ensures r.0.Restart? ==> dev.autoNoExternal && r.0.package != "" && r.1 == Add(s, r.0.package)
    ensures r.0.Restart? ==> exists d :: dev.manifests(d) == Some(Manifest(Some(r.0.package)))
    ensures !r.0.Restart? ==> r.1 == s
    ensures Prepare(dev, req).Failure? ==> r == (Next(BadRequest(Prepare(dev, req).error)), s)
    ensures Prepare(dev, req).Success? && dev.dispatch(Config(s), Prepare(dev, req).value).Failure? ==>
      r == (Next(DispatchFailed(dev.dispatch(Config(s), Prepare(dev, req).value).error)), s)
  {
    match Prepare(dev, req)
    case Failure(e) => (Next(BadRequest(e)), s)
    case Success(request) =>
      match dev.dispatch(Config(s), request)
      case Failure(message) => (Next(DispatchFailed(message)), s)
      case Success(response) => React(dev, response, s)
  }

  /** Once the request is prepared and dispatched, the middleware's answer is `React`'s. */
  lemma HandleReacts(dev: DevServer, req: HostRequest, s: NoExternalSet, response: SandboxResponse)
    requires Valid(s)
    requires Prepare(dev, req).Success?
    requires dev.dispatch(Config(s), Prepare(dev, req).value) == Success(response)
    ensures Handle(dev, req, s) == React(dev, response, s)
  {
  }

  /**
    With automatic inlining off, an escalation whose package is found is answered
    with status 500 and the instruction to add that package, and the set is unchanged.
  */
  lemma ManualModeReports(dev: DevServer, response: SandboxResponse, s: NoExternalSet, name: string)
    requires Valid(s)
    requires !dev.autoNoExternal
    requires EscalationPath(response).Some?
    requires GetPackageName(NormalizeBundlePath(EscalationPath(response).value, dev.isWindows), dev.cwd, dev.manifests) == Found(Some(name))
    requires name != ""
    ensures React(dev, response, s) == (Respond(HostResponse(500, dev.reasons(500), [], Some(Text("Add '" + name + "' to noExternal")))), s)
  {
  }

  /** In the corrected revision the middleware always answers: it never hangs. */
  lemma CorrectedNeverHangs(dev: DevServer, req: HostRequest, s: NoExternalSet)
    requires Valid(s)
    requires dev.revision == Corrected
    ensures Handle(dev, req, s).0 != Hang
  {
  }

  /**
    As written, an escalation for "/tmp/x.js" with the working directory "/proj"
    and no package.json anywhere leaves the request hanging.
  */
  lemma AsWrittenHangs(auto: bool, entry: string, parseUrl: UrlParser, reasons: ReasonPhrases,
                       dispatch: (SsrConfig, SandboxRequest) -> Result<SandboxResponse, string>, s: NoExternalSet)
    requires Valid(s)
    ensures var dev := DevServer(AsWritten, auto, false, "/proj", entry, d => None, parseUrl, reasons, dispatch);
      var response := SandboxResponse(500, "", [(BundleHeader, "/tmp/x.js")], None);
      React(dev, response, s) == (Hang, s)
  {
    var dev := DevServer(AsWritten, auto, false, "/proj", entry, d => None, parseUrl, reasons, dispatch);
    var response := SandboxResponse(500, "", [(BundleHeader, "/tmp/x.js")], None);
    BundleHeaderIsLower();
    assert Matching(response.headers, BundleHeader) == ["/tmp/x.js"];
    assert EscalationPath(response) == Some("/tmp/x.js");
    assert "/tmp/x.js"[0] != "file://"[0];
    assert !StartsWith("/tmp/x.js", "file://");
    SpinsOutsideCwd();
    assert PackageOf(dev, "/tmp/x.js") == Spins;
  }

  /**
    A session: the requests the middleware handles in order, and the set they leave.
    A hanging lookup spins on the single event loop, so from that request on the
    server answers nothing and the set stays as it was.
  */
  function Session(dev: DevServer, reqs: seq<HostRequest>, s: NoExternalSet): (r: (seq<Outcome>, NoExternalSet))
    requires Valid(s)
    ensures |r.0| == |reqs|
    ensures Valid(r.1)
    decreases |reqs|
  {
    if reqs == [] then ([], s)
    else
      HandleExtends(dev, reqs[0], s);
      var (outcome, s') := Handle(dev, reqs[0], s);
      if outcome.Hang? then (seq(|reqs|, _ => Hang), s)
      else
        var rest := Session(dev, reqs[1..], s');
        ([outcome] + rest.0, rest.1)
  }

  /** Once a request hangs, every later request hangs too. */
  lemma {:induction false} SessionHangAbsorbs(dev: DevServer, reqs: seq<HostRequest>, s: NoExternalSet, i: nat)
    requires Valid(s)
    requires i < |reqs|
    requires Session(dev, reqs, s).0[i] == Hang
    ensures forall j :: i <= j < |reqs| ==> Session(dev, reqs, s).0[j] == Hang
    decreases |reqs|
  {
    if Handle(dev, reqs[0], s).0.Hang? {
      SessionHangs(dev, reqs, s);
    } else {
      SessionSteps(dev, reqs, s);
      SessionHangAbsorbs(dev, reqs[1..], Handle(dev, reqs[0], s).1, i - 1);
    }
  }

  /** After a hang the set stays the one the requests before it left. */
  lemma {:induction false} SessionHangKeepsSet(dev: DevServer, reqs: seq<HostRequest>, s: NoExternalSet, i: nat)
    requires Valid(s)
    requires i < |reqs|
    requires Session(dev, reqs, s).0[i] == Hang
    ensures Session(dev, reqs, s).1 == Session(dev, reqs[..i], s).1
    decreases |reqs|
  {
    if Handle(dev, reqs[0], s).0.Hang? {
      SessionHangs(dev, reqs, s);
      PrefixHangs(dev, reqs, s, i);
    } else {
      SessionSteps(dev, reqs, s);
      SessionHangKeepsSet(dev, reqs[1..], Handle(dev, reqs[0], s).1, i - 1);
      PrefixSteps(dev, reqs, s, i);
    }
  }

  /** A prefix of a session whose first request hangs keeps the set too. */
  lemma PrefixHangs(dev: DevServer, reqs: seq<HostRequest>, s: NoExternalSet, i: nat)
    requires Valid(s)
    requires i <= |reqs| && reqs != [] && Handle(dev, reqs[0], s).0.Hang?
    ensures Session(dev, reqs[..i], s).1 == s
  {
    if i > 0 {
      assert reqs[..i][0] == reqs[0];
      SessionHangs(dev, reqs[..i], s);
    }
  }

  /** A prefix of a session whose first request does not hang goes on from that request's set. */
  lemma PrefixSteps(dev: DevServer, reqs: seq<HostRequest>, s: NoExternalSet, i: nat)
    requires Valid(s)
    requires 0 < i <= |reqs| && !Handle(dev, reqs[0], s).0.Hang?
    ensures Valid(Handle(dev, reqs[0], s).1)
    ensures Session(dev, reqs[..i], s).1 == Session(dev, reqs[1..][..i - 1], Handle(dev, reqs[0], s).1).1
  {
    assert reqs[..i][0] == reqs[0];
    assert reqs[..i][1..] == reqs[1..][..i - 1];
    SessionSteps(dev, reqs[..i], s);
  }

  /** A session whose first request hangs answers nothing and keeps the set. */
  lemma SessionHangs(dev: DevServer, reqs: seq<HostRequest>, s: NoExternalSet)
    requires Valid(s)
    requires reqs != [] && Handle(dev, reqs[0], s).0.Hang?
    ensures Session(dev, reqs, s).1 == s
    ensures forall j :: 0 <= j < |reqs| ==> Session(dev, reqs, s).0[j] == Hang
  {
  }

  /** A session whose first request does not hang goes on from that request's set. */
  lemma SessionSteps(dev: DevServer, reqs: seq<HostRequest>, s: NoExternalSet)
    requires Valid(s)
    requires reqs != [] && !Handle(dev, reqs[0], s).0.Hang?
    ensures Valid(Handle(dev, reqs[0], s).1)
    ensures Session(dev, reqs, s).0 ==
      [Handle(dev, reqs[0], s).0] + Session(dev, reqs[1..], Handle(dev, reqs[0], s).1).0
    ensures Session(dev, reqs, s).1 == Session(dev, reqs[1..], Handle(dev, reqs[0], s).1).1
  {
    HandleExtends(dev, reqs[0], s);
  }

  /** `Extends` is transitive and keeps membership. */
  lemma ExtendsTransitive(a: NoExternalSet, b: NoExternalSet, c: NoExternalSet)
    requires Extends(a, b) && Extends(b, c)
    ensures Extends(a, c)
  {
    assert c.order[..|a.order|] == c.order[..|b.order|][..|a.order|];
  }

  lemma ExtendsKeepsMembers(a: NoExternalSet, b: NoExternalSet)
    requires Extends(a, b)
    ensures Members(a) <= Members(b)
  {
    forall x | x in Members(a) ensures x in Members(b) {
      var i :| 0 <= i < |a.order| && a.order[i] == x;
      assert b.order[..|a.order|][i] == x;
    }
  }

  /** One pass keeps the set valid and only appends to it. */
  lemma HandleExtends(dev: DevServer, req: HostRequest, s: NoExternalSet)
    requires Valid(s)
    ensures Valid(Handle(dev, req, s).1)
    ensures Extends(s, Handle(dev, req, s).1)
    ensures Members(s) <= Members(Handle(dev, req, s).1)
  {
    var r := Handle(dev, req, s);
    if !r.0.Restart? {
      assert s.order[..|s.order|] == s.order;
    }
    ExtendsKeepsMembers(s, r.1);
  }

  /**
    Names once in the set stay there, in place, through any number of requests
    and restarts.
  */
  lemma {:induction false} SessionMonotonic(dev: DevServer, reqs: seq<HostRequest>, s: NoExternalSet)
    requires Valid(s)
    ensures Members(s) <= Members(Session(dev, reqs, s).1)
    ensures Extends(s, Session(dev, reqs, s).1)
    decreases |reqs|
  {
    var f := Session(dev, reqs, s).1;
    if reqs == [] {
      assert s.order[..|s.order|] == s.order;
    } else if Handle(dev, reqs[0], s).0.Hang? {
      assert f == s;
      assert s.order[..|s.order|] == s.order;
    } else {
      var s' := Handle(dev, reqs[0], s).1;
      HandleExtends(dev, reqs[0], s);
      SessionMonotonic(dev, reqs[1..], s');
      ExtendsTransitive(s, s', f);
    }
    ExtendsKeepsMembers(s, f);
  }

  /** The names a set can gain are the package names some manifest declares. */
  ghost predicate DeclaredNamesWithin(manifests: Manifests, universe: set<string>) {
    forall d :: manifests(d).Some? && manifests(d).value.Manifest? && manifests(d).value.name.Some? ==>
      manifests(d).value.name.value in universe
  }

  /** One pass adds at most a name some manifest declares. */
  lemma HandleWithin(dev: DevServer, req: HostRequest, s: NoExternalSet, universe: set<string>)
    requires Valid(s)
    requires DeclaredNamesWithin(dev.manifests, universe)
    ensures Members(Handle(dev, req, s).1) <= Members(s) + universe
  {
    var r := Handle(dev, req, s);
    if r.0.Restart? {
      var name := r.0.package;
      var d :| dev.manifests(d) == Some(Manifest(Some(name)));
      assert name in universe;
      assert Members(r.1) == Members(s) + {name};
    } else {
      assert r.1 == s;
    }
  }

  lemma {:induction false} SessionWithin(dev: DevServer, reqs: seq<HostRequest>, s: NoExternalSet, universe: set<string>)
    requires Valid(s)
    requires DeclaredNamesWithin(dev.manifests, universe)
    ensures Members(Session(dev, reqs, s).1) <= Members(s) + universe
    decreases |reqs|
  {
    if reqs != [] {
      var s' := Handle(dev, reqs[0], s).1;
      HandleExtends(dev, reqs[0], s);
      HandleWithin(dev, reqs[0], s, universe);
      SessionWithin(dev, reqs[1..], s', universe);
    }
  }

  /**
    The convergence bound: whatever the requests, the set never holds more than
    its starting names and the names the project's manifests declare.
  */
  lemma SessionBounded(dev: DevServer, reqs: seq<HostRequest>, s: NoExternalSet, universe: set<string>)
    requires Valid(s)
    requires DeclaredNamesWithin(dev.manifests, universe)
    ensures Members(Session(dev, reqs, s).1) <= Members(s) + universe
    ensures |Session(dev, reqs, s).1.order| <= |Members(s) + universe|
  {
    var f := Session(dev, reqs, s).1;
    SessionWithin(dev, reqs, s, universe);
    DistinctCount(f);
    SubsetCardinality(Members(f), Members(s) + universe);
  }

  /** The passes of a session whose restart put a new name into the set, up to a hang. */
  function Growths(dev: DevServer, reqs: seq<HostRequest>, s: NoExternalSet): nat
    requires Valid(s)
    decreases |reqs|
  {
    if reqs == [] then 0
    else
      HandleExtends(dev, reqs[0], s);
      var (outcome, s') := Handle(dev, reqs[0], s);
      if outcome.Hang? then 0
      else (if s' != s then 1 else 0) + Growths(dev, reqs[1..], s')
  }

  /** Each growing pass adds exactly one entry; every other pass adds none. */
  lemma {:induction false} SessionGrowth(dev: DevServer, reqs: seq<HostRequest>, s: NoExternalSet)
    requires Valid(s)
    ensures |Session(dev, reqs, s).1.order| == |s.order| + Growths(dev, reqs, s)
    decreases |reqs|
  {
    if reqs != [] {
      var r := Handle(dev, reqs[0], s);
      HandleExtends(dev, reqs[0], s);
      if !r.0.Hang? {
        if r.1 != s {
          assert r.0.Restart?;
          assert r.0.package !in Members(s);
          assert |r.1.order| == |s.order| + 1;
        }
        SessionGrowth(dev, reqs[1..], r.1);
      }
    }
  }

  /**
    Convergence: however many requests arrive, at most as many restarts grow the
    set as there are declared package names not already in it. Restarts that name
    a package already present leave the set as it was.
  */
  lemma GrowthsBounded(dev: DevServer, reqs: seq<HostRequest>, s: NoExternalSet, universe: set<string>)
    requires Valid(s)
    requires DeclaredNamesWithin(dev.manifests, universe)
    ensures Growths(dev, reqs, s) <= |universe - Members(s)|
  {
    SessionGrowth(dev, reqs, s);
    SessionBounded(dev, reqs, s, universe);
    DistinctCount(s);
    assert Members(s) + universe == Members(s) + (universe - Members(s));
    assert Members(s) * (universe - Members(s)) == {};
  }

  lemma {:induction false} SubsetCardinality(a: set<string>, b: set<string>)
    requires a <= b
    ensures |a| <= |b|
    decreases |a|
  {
    if a != {} {
      var x :| x in a;
      SubsetCardinality(a - {x}, b - {x});
    }
  }

  /** A set with distinct entries has as many members as entries. */
  lemma {:induction false} DistinctCount(s: NoExternalSet)
    requires Valid(s)
    ensures |Members(s)| == |s.order|
    decreases |s.order|
  {
    if s.order != [] {
      var init := NoExternalSet(s.order[..|s.order| - 1]);
      var last := s.order[|s.order| - 1];
      DistinctCount(init);
      assert last !in Members(init);
      assert Members(s) == Members(init) + {last};
    }
  }
}

=== FILE: escalation.dfy ===
/**
  The protocol between the two sides: the sandbox's `fetch` entry signals a failed
  import with `x-request-bundle`, and the host's middleware turns that signal into
  a restart with the failing package inlined.
*/
module Escalation {
  import opened Wrappers
  import opened FetchHeaders
  import opened WireAdapter
  import opened PackageName
  import opened Protocol
  import opened ModuleRunner
  import opened Convergence

  /** The escalation path the host reads from a failure response, if any. */
  function Signalled(e: Thrown): Option<string> {
    if e.ImportError? && e.path != "" then Some(e.path) else None
  }

  /**
    The sandbox's failure response carries a non-empty escalation path exactly when
    the failure was an `ImportError` with a non-empty path, and then it is that path.
  */
  lemma FailureSignalsIff(e: Thrown)
    ensures EscalationPath(FailureResponse(e)).Some? <==> e.ImportError? && e.path != ""
    ensures EscalationPath(FailureResponse(e)) == Signalled(e)
  {
    var h := FailureResponse(e).headers;
    if e.ImportError? {
      assert Get(h, BundleHeader) == Some(e.path);
    } else {
      assert Get(h, BundleHeader) == None;
    }
  }

  /**
    What the host sees from the corrected `fetch` entry: the handler's own response
    decides when it returned one; otherwise the failure escalates exactly when it
    was an `ImportError` with a non-empty path.
  */
  lemma FetchSignals(request: SandboxRequest, load: EntryLoader)
    ensures forall resp :: Attempt(request, load) == Success(Returns(resp)) ==>
      EscalationPath(Fetch(request, load)) == EscalationPath(resp)
    ensures forall e :: Attempt(request, load) in {Failure(e), Success(Throws(e)), Success(Rejects(e))} ==>
      EscalationPath(Fetch(request, load)) == Signalled(e)
  {
    match Attempt(request, load)
    case Success(Returns(resp)) =>
    case Failure(e) => FailureSignalsIff(e);
    case Success(Throws(e)) => FailureSignalsIff(e);
    case Success(Rejects(e)) => FailureSignalsIff(e);
  }

  /**
    In automatic mode, a failed import of `path` whose nearest manifest names `pkg`
    makes the middleware restart with `pkg` added to the noExternal set.
  */
  lemma ImportFailureRestarts(dev: DevServer, path: string, s: NoExternalSet, pkg: string)
    requires Valid(s)
    requires dev.autoNoExternal
    requires path != ""
    requires GetPackageName(NormalizeBundlePath(path, dev.isWindows), dev.cwd, dev.manifests) == Found(Some(pkg))
    requires pkg != ""
    ensures React(dev, FailureResponse(ImportError(path)), s) == (Restart(pkg), Add(s, pkg))
    ensures pkg in Config(React(dev, FailureResponse(ImportError(path)), s).1).noExternal
  {
    FailureSignalsIff(ImportError(path));
  }

  /**
    Every other failure is forwarded to the client as the sandbox's own 500, and the
    noExternal set is left as it was.
  */
  lemma OtherFailuresForwarded(dev: DevServer, e: Thrown, s: NoExternalSet)
    requires Valid(s)
    requires !(e.ImportError? && e.path != "")
    ensures React(dev, FailureResponse(e), s).1 == s
    ensures React(dev, FailureResponse(e), s).0.Respond?
    ensures React(dev, FailureResponse(e), s).0.response.status == 500
  {
    FailureSignalsIff(e);
  }

  /**
    The whole round trip through the middleware: a request whose dispatch answers
    with the sandbox's `ImportError` response restarts the server with the package
    inlined, and the next dispatch's configuration lists it.
  */
  lemma RoundTrip(dev: DevServer, req: HostRequest, s: NoExternalSet, path: string, pkg: string)
    requires Valid(s)
    requires dev.autoNoExternal
    requires Prepare(dev, req).Success?
    requires dev.dispatch(Config(s), Prepare(dev, req).value) == Success(FailureResponse(ImportError(path)))
    requires path != ""
    requires GetPackageName(NormalizeBundlePath(path, dev.isWindows), dev.cwd, dev.manifests) == Found(Some(pkg))
    requires pkg != ""
    ensures Handle(dev, req, s) == (Restart(pkg), Add(s, pkg))
    ensures pkg in Config(Handle(dev, req, s).1).noExternal
  {
    HandleReacts(dev, req, s, FailureResponse(ImportError(path)));
    ImportFailureRestarts(dev, path, s, pkg);
  }

  /** Once inlined, a package stays inlined: a second escalation for it changes nothing in the set. */
  lemma SecondEscalationKeepsSet(dev: DevServer, path: string, s: NoExternalSet, pkg: string)
    requires Valid(s)
    requires dev.autoNoExternal
    requires path != ""
    requires GetPackageName(NormalizeBundlePath(path, dev.isWindows), dev.cwd, dev.manifests) == Found(Some(pkg))
    requires pkg != ""
    ensures var s1 := React(dev, FailureResponse(ImportError(path)), s).1;
      React(dev, FailureResponse(ImportError(path)), s1) == (Restart(pkg), s1)
  {
    ImportFailureRestarts(dev, path, s, pkg);
    var s1 := Add(s, pkg);
    ImportFailureRestarts(dev, path, s1, pkg);
  }
}

=== FILE: fallback_service.dfy ===
/**
  `unsafeModuleFallbackService` of vitePlugin/unsafeModuleFallbackService.ts: the
  host endpoint the sandbox asks for a module it cannot load. It normalises the
  specifier, referrer and written specifier, then answers with a 301 redirect to a
  resolved path, the bytes of a `.wasm` file, or the bundled ES module source.
*/
module FallbackService {
  import opened Wrappers
  import opened Strings
  import opened WireAdapter

  /** What the endpoint throws. */
  datatype ServiceError =
    | SpecifierRequired                           // "specifier is required"
    | ResolveFailed(raw: string, referrer: string) // `require.resolve` found nothing
    | ReadFailed(path: string)                     // `readFileSync` threw
    | NoOutputFile                                 // `outputFiles[0]` was undefined

  /** At most one leading "/" removed. */
  function DropSlash(s: string): string {
    if FirstIs(s, '/') then DropPrefix(s, 1) else s
  }

  /** At most one leading "file:" removed. */
  function DropScheme(s: string): string {
    if StartsWith(s, "file:") then DropPrefix(s, 5) else s
  }

  /** Removing a leading "/" or "file:" that is there gives back what follows it. */
  lemma DropsPrefix(x: string)
    ensures DropSlash("/" + x) == x
    ensures DropScheme("file:" + x) == x
  {
    assert ("/" + x)[0] == '/';
    assert ("/" + x)[1..] == x;
    assert ("file:" + x)[..5] == "file:";
    assert ("file:" + x)[5..] == x;
  }

  /** A string that starts with "/" or "file:" keeps its other prefix. */
  lemma KeepsOtherPrefix(x: string)
    ensures DropScheme("/" + x) == "/" + x
    ensures DropSlash("file:" + x) == "file:" + x
  {
    assert ("/" + x)[0] == '/';
    assert ("file:" + x)[0] == 'f';
  }

  /**
    The removals both normalisers make: a leading "/" when `lead` holds, then a
    leading "file:", then a leading "/" when `trail` holds; each at most once.
  */
  function Peel(s: string, lead: bool, trail: bool): string {
    var a := if lead then DropSlash(s) else s;
    var b := DropScheme(a);
    if trail then DropSlash(b) else b
  }

  /** The prefixes `Peel` may remove. */
  function StrippedPrefixes(lead: bool, trail: bool): set<string> {
    set a <- (if lead then {"", "/"} else {""}), b <- {"", "file:"}, c <- (if trail then {"", "/"} else {""}) :: a + b + c
  }

  /** `Peel` keeps a suffix of its input and removes one of `StrippedPrefixes`. */
  lemma PeelsPrefix(s: string, lead: bool, trail: bool)
    ensures |Peel(s, lead, trail)| <= |s|
    ensures Peel(s, lead, trail) == s[|s| - |Peel(s, lead, trail)|..]
    ensures s[..|s| - |Peel(s, lead, trail)|] in StrippedPrefixes(lead, trail)
  {
    var a := if lead then DropSlash(s) else s;
    var pa := SlashStep(s, lead);
    var b := DropScheme(a);
    var pb := SchemeStep(a);
    var c := if trail then DropSlash(b) else b;
    var pc := SlashStep(b, trail);
    assert c == Peel(s, lead, trail);
    PrefixChain(s, a, b, c);
    InStrippedPrefixes(pa, pb, pc, lead, trail);
  }

  /** An optional "/" step removes "" or "/" in front of what it keeps. */
  lemma SlashStep(s: string, enabled: bool) returns (p: string)
    ensures var a := if enabled then DropSlash(s) else s;
      |a| <= |s| && s == p + a && p == s[..|s| - |a|] && (p == "" || (enabled && p == "/"))
  {
    if enabled && FirstIs(s, '/') {
      p := [s[0]];
      assert s == p + s[1..];
    } else {
      p := "";
      assert s == p + s;
    }
  }

  /** The "file:" step removes "" or "file:" in front of what it keeps. */
  lemma SchemeStep(s: string) returns (p: string)
    ensures |DropScheme(s)| <= |s| && s == p + DropScheme(s) && p == s[..|s| - |DropScheme(s)|]
    ensures p == "" || p == "file:"
  {
    if StartsWith(s, "file:") {
      p := s[..5];
      assert s == p + s[5..];
    } else {
      p := "";
      assert s == p + s;
    }
  }

  lemma InStrippedPrefixes(a: string, b: string, c: string, lead: bool, trail: bool)
    requires a == "" || (lead && a == "/")
    requires b == "" || b == "file:"
    requires c == "" || (trail && c == "/")
    ensures a + b + c in StrippedPrefixes(lead, trail)
  {
    assert a in (if lead then {"", "/"} else {""});
    assert c in (if trail then {"", "/"} else {""});
  }

  /**
    `getNormalPath`: no input (null or "") is an error; otherwise at most one
    leading "/" is removed, then at most one "file:", then on Windows at most one
    more "/".
  */
  function GetNormalPath(target: Option<string>, isWindows: bool): (r: Result<string, ServiceError>)
    ensures r.Failure? <==> target.None? || target.value == ""
    ensures r.Failure? ==> r.error == SpecifierRequired
    ensures r.Success? ==> |r.value| <= |target.value| <= |r.value| + 7
    ensures r.Success? ==> r.value == target.value[|target.value| - |r.value|..]
    ensures r.Success? ==> target.value[..|target.value| - |r.value|] in StrippedPrefixes(true, isWindows)
    ensures !isWindows && target.Some? && FirstIs(target.value, '/') ==>
      r == Success(if StartsWith(target.value[1..], "file:") then target.value[6..] else target.value[1..])
    ensures !isWindows && target.Some? && target.value != "" && !FirstIs(target.value, '/') ==>
      r == Success(if StartsWith(target.value, "file:") then target.value[5..] else target.value)
  {
    if target.None? || target.value == "" then Failure(SpecifierRequired)
    else
      PeelsPrefix(target.value, true, isWindows);
      Success(Peel(target.value, true, isWindows))
  }

  /**
    On Windows the normaliser makes the same removals as elsewhere and then at
    most one further leading "/".
  */
  lemma NormalPathOnWindows(target: Option<string>)
    ensures GetNormalPath(target, true).Failure? <==> GetNormalPath(target, false).Failure?
    ensures GetNormalPath(target, true).Success? ==>
      GetNormalPath(target, true).value == DropSlash(GetNormalPath(target, false).value)
  {
  }

  /**
    A path that does not itself start with "/" or "file:", behind any prefix the
    normaliser strips ("/", then "file:", then on Windows "/"), comes back exactly.
  */
  lemma NormalPathRoundTrip(a: string, b: string, c: string, s: string, isWindows: bool)
    requires a in {"", "/"} && b in {"", "file:"} && c in (if isWindows then {"", "/"} else {""})
    requires a + b + c + s != ""
    requires !FirstIs(s, '/') && !StartsWith(s, "file:")
    ensures a + b + c in StrippedPrefixes(true, isWindows)
    ensures GetNormalPath(Some(a + b + c + s), isWindows) == Success(s)
  {
    assert a + b + c in StrippedPrefixes(true, isWindows) by {
      assert a in {"", "/"} && b in {"", "file:"};
    }
    var afterA := StripsLeadingSlash(a, b, c, s, true);
    var afterB := StripsScheme(b, c, s, afterA);
    StripsTrailingSlash(c, s, afterB, isWindows);
  }

  /**
    The first step over `a + b + c + s`: `a` goes, and when `a` and `b` are empty
    a "/" in `c` goes in its place.
  */
  lemma StripsLeadingSlash(a: string, b: string, c: string, s: string, enabled: bool) returns (after: string)
    requires (a == "" || a == "/") && (b == "" || b == "file:") && (c == "" || c == "/")
    requires a == "/" ==> enabled
    requires !FirstIs(s, '/') && !StartsWith(s, "file:")
    ensures after == (if enabled then DropSlash(a + b + c + s) else a + b + c + s)
    ensures after == b + c + s || (a == "" && b == "" && c == "/" && after == s)
  {
    var t := a + b + c + s;
    var rest := b + c + s;
    if a == "/" {
      assert t == "/" + rest;
      DropsPrefix(rest);
      after := rest;
    } else {
      assert t == rest;
      if b == "file:" {
        assert rest == "file:" + (c + s);
        KeepsOtherPrefix(c + s);
        after := rest;
      } else if c == "/" {
        assert rest == "/" + s;
        DropsPrefix(s);
        after := if enabled then s else rest;
      } else {
        assert rest == s;
        after := s;
      }
    }
  }

  /** The second step: a "file:" in `b` goes. */
  lemma StripsScheme(b: string, c: string, s: string, before: string) returns (after: string)
    requires (b == "" || b == "file:") && (c == "" || c == "/")
    requires !FirstIs(s, '/') && !StartsWith(s, "file:")
    requires before == b + c + s || before == s
    ensures after == DropScheme(before)
    ensures after == c + s || after == s
    ensures before == s ==> after == s
  {
    if before == s {
      after := s;
    } else if b == "file:" {
      assert before == "file:" + (c + s);
      DropsPrefix(c + s);
      after := c + s;
    } else {
      assert before == "/" + s;
      KeepsOtherPrefix(s);
      after := before;
    }
  }

  /** The third step: on Windows a "/" in `c` goes. */
  lemma StripsTrailingSlash(c: string, s: string, before: string, isWindows: bool)
    requires (c == "" || c == "/") && (c == "/" ==> isWindows)
    requires !FirstIs(s, '/')
    requires before == c + s || before == s
    ensures (if isWindows then DropSlash(before) else before) == s
  {
    if before != s && c == "/" {
      assert before == "/" + s;
      DropsPrefix(s);
    } else {
      assert before == s;
    }
  }

  /**
    Each prefix is removed at most once: whatever follows "/file:" (and on Windows
    a further "/") is left as it is, even another "/" or "file:".
  */
  lemma StripsEachOnce(s: string)
    ensures GetNormalPath(Some("/file:" + s), false) == Success(s)
    ensures GetNormalPath(Some("/file:/" + s), true) == Success(s)
  {
    assert "/file:" + s == "/" + ("file:" + s);
    DropsPrefix("file:" + s);
    DropsPrefix(s);
    assert "/file:/" + s == "/" + ("file:" + ("/" + s));
    DropsPrefix("file:" + ("/" + s));
    DropsPrefix("/" + s);
  }

  /** "/" normalises to the empty string. */
  lemma SlashNormalisesToEmpty(isWindows: bool)
    ensures GetNormalPath(Some("/"), isWindows) == Success("")
  {
    DropsPrefix("");
    assert "/" + "" == "/";
  }

  /**
    The second pass over the normalised specifier (lines 45-61): on Windows a "/"
    is removed, an empty result is an error, then a "file:" and on Windows a "/".
  */
  function ResolveSpecifier(target: string, isWindows: bool): (r: Result<string, ServiceError>)
    ensures r.Failure? <==> target == "" || (isWindows && target == "/")
    ensures r.Failure? ==> r.error == SpecifierRequired
    ensures r.Success? ==> |r.value| <= |target| && r.value == target[|target| - |r.value|..]
    ensures r.Success? ==> target[..|target| - |r.value|] in StrippedPrefixes(isWindows, isWindows)
    ensures !isWindows && !StartsWith(target, "file:") && target != "" ==> r == Success(target)
    ensures !isWindows && StartsWith(target, "file:") ==> r == Success(target[5..])
  {
    var a := if isWindows then DropSlash(target) else target;
    if a == "" then Failure(SpecifierRequired)
    else
      PeelsPrefix(target, isWindows, isWindows);
      Success(Peel(target, isWindows, isWindows))
  }

  /**
    On Windows the second pass first removes at most one leading "/", fails when
    nothing is left, and otherwise makes the removals it makes elsewhere followed by
    at most one further leading "/".
  */
  lemma SpecifierOnWindows(target: string)
    ensures ResolveSpecifier(target, true).Failure? <==> DropSlash(target) == ""
    ensures ResolveSpecifier(target, true).Success? ==>
      && ResolveSpecifier(DropSlash(target), false).Success?
      && ResolveSpecifier(target, true).value == DropSlash(ResolveSpecifier(DropSlash(target), false).value)
  {
  }

  /**
    Peeling `s` down to its suffix `a`, then `b`, then `c`: the removed prefixes,
    in order, make up the prefix `s` loses overall.
  */
  lemma PrefixChain(s: string, a: string, b: string, c: string)
    requires |a| <= |s| && a == s[|s| - |a|..]
    requires |b| <= |a| && b == a[|a| - |b|..]
    requires |c| <= |b| && c == b[|b| - |c|..]
    ensures c == s[|s| - |c|..]
    ensures s[..|s| - |c|] == s[..|s| - |a|] + a[..|a| - |b|] + b[..|b| - |c|]
  {
    var pa, pb, pc := s[..|s| - |a|], a[..|a| - |b|], b[..|b| - |c|];
    assert s == pa + a;
    assert a == pb + b;
    assert b == pc + c;
    assert s == (pa + pb + pc) + c;
  }


  /**
    A specifier that does not itself start with "/" or "file:", behind any prefix
    the second pass strips (on Windows "/", then "file:", then on Windows "/"),
    comes back exactly.
  */
  lemma SpecifierRoundTrip(a: string, b: string, c: string, s: string, isWindows: bool)
    requires a in (if isWindows then {"", "/"} else {""}) && b in {"", "file:"} && c in (if isWindows then {"", "/"} else {""})
    requires s != ""
    requires !FirstIs(s, '/') && !StartsWith(s, "file:")
    ensures a + b + c in StrippedPrefixes(isWindows, isWindows)
    ensures ResolveSpecifier(a + b + c + s, isWindows) == Success(s)
  {
    var afterA := StripsLeadingSlash(a, b, c, s, isWindows);
    assert afterA != "";
    var afterB := StripsScheme(b, c, s, afterA);
    StripsTrailingSlash(c, s, afterB, isWindows);
  }

  predicate LineTerminator(c: char) {
    c == '\n' || c == '\r' || c == '\U{2028}' || c == '\U{2029}'
  }

  /** Where the regular expression `/\?v=.+$/` matches: "?v=" then at least one character, no line break, to the end. */
  predicate VersionQueryAt(s: string, i: int) {
    0 <= i && i + 3 < |s| && s[i..i + 3] == "?v=" &&
    forall j :: i + 3 <= j < |s| ==> !LineTerminator(s[j])
  }

  /** The leftmost match at or after `from`. */
  function FirstVersionQuery(s: string, from: nat): (r: Option<nat>)
    ensures r.Some? ==> from <= r.value && VersionQueryAt(s, r.value)
    ensures r.Some? ==> forall j :: from <= j < r.value ==> !VersionQueryAt(s, j)
    ensures r.None? ==> forall j :: from <= j ==> !VersionQueryAt(s, j)
    decreases |s| - from
  {
    if from + 3 >= |s| then None
    else if VersionQueryAt(s, from) then Some(from)
    else FirstVersionQuery(s, from + 1)
  }

  /**
    `id.replace(/\?v=.+$/, "")`: the leftmost version query and everything after
    it are removed; an id without one is unchanged.
  */
  function StripVersionQuery(id: string): (r: string)
    ensures |r| <= |id| && r == id[..|r|]
    ensures r == id <==> forall i :: 0 <= i ==> !VersionQueryAt(id, i)
    ensures r != id ==> VersionQueryAt(id, |r|)
    ensures forall j :: 0 <= j < |r| ==> !VersionQueryAt(id, j)
  {
    match FirstVersionQuery(id, 0)
    case None => id
    case Some(i) => id[..i]
  }

  /** Bundler output: the texts of `outputFiles`, or the error the build rejected with. */
  datatype BuildOutcome = Built(outputFiles: seq<string>) | BuildFailed(message: string)

  /**
    The host's collaborators. `resolveId` is Vite's SSR `resolveId` (the id, or
    none); `requireResolve` is `require.resolve(raw, {paths: [referrer]})`;
    `build` is the esbuild call for one entry point, banner included.
  */
  datatype Host = Host(
    isWindows: bool,
    fileExists: string -> bool,
    readFile: string -> Option<seq<byte>>,
    resolveId: (string, string) -> Option<string>,
    requireResolve: (string, string) -> Option<string>,
    build: string -> BuildOutcome)

  /** The request: the `X-Resolve-Method` header and the three query parameters. */
  datatype ResolveRequest = ResolveRequest(
    resolveMethod: Option<string>,
    specifier: Option<string>,
    referrer: Option<string>,
    rawSpecifier: Option<string>)

  /** What the endpoint answers. */
  datatype Reply =
    | Redirect(location: string)                       // 301 with `Location`
    | WasmAsset(name: string, wasm: seq<int>)          // `{name, wasm}`
    | EsModule(name: string, esModule: Option<string>) // `{name, esModule}`; no field when absent

  /** A written specifier that is relative: "./…" or "/…". */
  predicate IsRelative(raw: string) {
    StartsWith(raw, "./") || FirstIs(raw, '/')
  }

  /**
    The resolved path a redirect points at. `import` asks Vite and drops a
    version query (nothing found gives ""); anything else asks `require.resolve`
    and turns backslashes into slashes.
  */
  function RedirectTarget(resolveMethod: Option<string>, raw: string, referrer: string, host: Host): (r: Result<string, ServiceError>)
    ensures resolveMethod == Some("import") ==> r.Success?
    ensures resolveMethod == Some("import") && host.resolveId(raw, referrer).None? ==> r == Success("")
    ensures resolveMethod == Some("import") && host.resolveId(raw, referrer).Some? ==>
              r.value == StripVersionQuery(host.resolveId(raw, referrer).value)
    ensures resolveMethod != Some("import") ==> (r.Failure? <==> host.requireResolve(raw, referrer).None?)
    ensures resolveMethod != Some("import") && r.Failure? ==> r.error == ResolveFailed(raw, referrer)
    ensures resolveMethod != Some("import") && r.Success? ==>
              var path := host.requireResolve(raw, referrer).value;
              && '\\' !in r.value
              && |r.value| == |path|
              && (forall i :: 0 <= i < |path| ==> r.value[i] == (if path[i] == '\\' then '/' else path[i]))
              && ('\\' !in path ==> r.value == path)
  {
    if resolveMethod == Some("import") then
      match host.resolveId(raw, referrer)
      case None => Success("")
      case Some(id) => Success(StripVersionQuery(id))
    else
      match host.requireResolve(raw, referrer)
      case None => Failure(ResolveFailed(raw, referrer))
      case Some(path) =>
        ReplaceAllRemoves(path, '\\', '/');
        Success(ReplaceAll(path, '\\', '/'))
  }

  /** `Array.from(buffer)`: one number per byte. */
  function ToNumbers(bytes: seq<byte>): (r: seq<int>)
    ensures |r| == |bytes|
    ensures forall i :: 0 <= i < |r| ==> 0 <= r[i] < 256
  {
    seq(|bytes|, i requires 0 <= i < |bytes| => bytes[i] as int)
  }

  /** Reading a `wasm` array back as bytes. */
  function FromNumbers(numbers: seq<int>): (r: seq<byte>)
    requires forall i :: 0 <= i < |numbers| ==> 0 <= numbers[i] < 256
    ensures |r| == |numbers|
  {
    seq(|numbers|, i requires 0 <= i < |numbers| => numbers[i] as byte)
  }

  /** A `wasm` array read back as bytes is exactly the file's contents. */
  lemma WasmRoundTrip(bytes: seq<byte>)
    ensures FromNumbers(ToNumbers(bytes)) == bytes
  {
  }

  /** The three normalised inputs and the specifier the branches work on. */
  datatype Normalized = Normalized(target: string, referrer: string, raw: string, specifier: string)

  /**
    Lines 39-61: the three parameters through `getNormalPath`, then the second
    pass over the normalised specifier. Any step that finds nothing refuses the
    request; the fields are the steps' results.
  */
  function Normalize(req: ResolveRequest, isWindows: bool): (r: Result<Normalized, ServiceError>)
    ensures r.Failure? ==> r.error == SpecifierRequired
    ensures r.Success? ==> req.specifier.Some? && req.specifier.value != ""
    ensures r.Success? <==>
      && GetNormalPath(req.specifier, isWindows).Success?
      && GetNormalPath(req.referrer, isWindows).Success?
      && GetNormalPath(req.rawSpecifier, isWindows).Success?
      && ResolveSpecifier(GetNormalPath(req.specifier, isWindows).value, isWindows).Success?
    ensures r.Success? ==>
      && r.value.target == GetNormalPath(req.specifier, isWindows).value
      && r.value.referrer == GetNormalPath(req.referrer, isWindows).value
      && r.value.raw == GetNormalPath(req.rawSpecifier, isWindows).value
      && r.value.specifier == ResolveSpecifier(r.value.target, isWindows).value
  {
    var target :- GetNormalPath(req.specifier, isWindows);
    var referrer :- GetNormalPath(req.referrer, isWindows);
    var raw :- GetNormalPath(req.rawSpecifier, isWindows);
    var specifier :- ResolveSpecifier(target, isWindows);
    Success(Normalized(target, referrer, raw, specifier))
  }

  /**
    Away from Windows the two passes together remove a leading "/" and up to two
    "file:" prefixes: "/file:file:x" is looked up as "x".
  */
  lemma SpecifierStripsTwoSchemes(s: string, referrer: string, raw: string)
    requires s != "" && !FirstIs(s, '/') && !StartsWith(s, "file:")
    requires referrer != "" && raw != ""
    ensures var req := ResolveRequest(None, Some("/file:" + ("file:" + s)), Some(referrer), Some(raw));
      && Normalize(req, false).Success?
      && Normalize(req, false).value.target == "file:" + s
      && Normalize(req, false).value.specifier == s
  {
    StripsEachOnce("file:" + s);
    SpecifierRoundTrip("", "file:", "", s, false);
    assert "" + "file:" + "" + s == "file:" + s;
  }

  /** Whether the request takes the redirect branch. */
  predicate Redirects(n: Normalized, host: Host) {
    !IsRelative(n.raw) && !host.fileExists(n.specifier)
  }

  /**
    The endpoint once the request is normalised (lines 63-122): the redirect
    branch, then `.wasm` files, then the bundle. `name` is the requested specifier
    minus its first character.
  */
  function Answer(name: string, resolveMethod: Option<string>, n: Normalized, host: Host): (r: Result<Reply, ServiceError>)
    ensures r.Success? && r.value.Redirect? ==> StartsWith(r.value.location, "/")
    ensures r.Success? && r.value.WasmAsset? ==> r.value.name == name
    ensures r.Success? && r.value.EsModule? ==> r.value.name == name
  {
    if Redirects(n, host) then
      var resolved :- RedirectTarget(resolveMethod, n.raw, n.referrer, host);
      Success(Redirect("/" + resolved))
    else if EndsWith(n.raw, ".wasm") then
      match host.readFile(n.specifier)
      case None => Failure(ReadFailed(n.specifier))
      case Some(bytes) => Success(WasmAsset(name, ToNumbers(bytes)))
    else
      match host.build(n.specifier)
      case BuildFailed(_) => Success(EsModule(name, None))
      case Built(files) =>
        if files == [] then Failure(NoOutputFile) else Success(EsModule(name, Some(files[0])))
  }

  /**
    The endpoint. Specifiers that normalise to nothing are refused before any
    filesystem call; otherwise the normalised request is answered.
  */
  function Serve(req: ResolveRequest, host: Host): (r: Result<Reply, ServiceError>)
    ensures Normalize(req, host.isWindows).Failure? ==> r == Failure(SpecifierRequired)
    ensures Normalize(req, host.isWindows).Success? ==>
      req.specifier.Some? && req.specifier.value != "" &&
      r == Answer(req.specifier.value[1..], req.resolveMethod, Normalize(req, host.isWindows).value, host)
    ensures r.Success? && r.value.Redirect? ==> StartsWith(r.value.location, "/")
  {
    var n :- Normalize(req, host.isWindows);
    Answer(req.specifier.value[1..], req.resolveMethod, n, host)
  }

  /**
    When the written specifier is not relative and the specifier does not exist,
    the answer is the 301 redirect to "/" and the resolved path (or the resolver's
    error), decided before the wasm and bundle branches.
  */
  lemma RedirectBranch(name: string, resolveMethod: Option<string>, n: Normalized, host: Host)
    requires Redirects(n, host)
    ensures var target := RedirectTarget(resolveMethod, n.raw, n.referrer, host);
      Answer(name, resolveMethod, n, host) == (if target.Success? then Success(Redirect("/" + target.value)) else Failure(target.error))
  {
  }

  /** A redirect, or a failed `require.resolve`, comes only from the redirect branch. */
  lemma RedirectOnlyWhenMissing(name: string, resolveMethod: Option<string>, n: Normalized, host: Host)
    requires var r := Answer(name, resolveMethod, n, host);
      (r.Success? && r.value.Redirect?) || (r.Failure? && r.error.ResolveFailed?)
    ensures Redirects(n, host)
  {
  }

  /** A relative written specifier ("./…" or "/…" after normalising) never redirects. */
  lemma RelativeNeverRedirects(name: string, resolveMethod: Option<string>, n: Normalized, host: Host)
    requires IsRelative(n.raw)
    ensures !(Answer(name, resolveMethod, n, host).Success? && Answer(name, resolveMethod, n, host).value.Redirect?)
  {
  }

  /**
    A `.wasm` written specifier that is not redirected is answered with the file's
    bytes, one number per byte, under the requested specifier minus its first character.
  */
  lemma WasmBranch(name: string, resolveMethod: Option<string>, n: Normalized, host: Host)
    requires !Redirects(n, host)
    requires EndsWith(n.raw, ".wasm")
    ensures match host.readFile(n.specifier)
      case None => Answer(name, resolveMethod, n, host) == Failure(ReadFailed(n.specifier))
      case Some(bytes) =>
        && Answer(name, resolveMethod, n, host) == Success(WasmAsset(name, ToNumbers(bytes)))
        && FromNumbers(Answer(name, resolveMethod, n, host).value.wasm) == bytes
  {
    match host.readFile(n.specifier)
    case None =>
    case Some(bytes) => WasmRoundTrip(bytes);
  }

  /**
    Anything else is bundled: the first output file becomes `esModule`, and a
    failed build is caught and answered without an `esModule` field.
  */
  lemma BundleBranch(name: string, resolveMethod: Option<string>, n: Normalized, host: Host)
    requires !Redirects(n, host)
    requires !EndsWith(n.raw, ".wasm")
    ensures match host.build(n.specifier)
      case BuildFailed(_) => Answer(name, resolveMethod, n, host) == Success(EsModule(name, None))
      case Built(files) =>
        && (files == [] ==> Answer(name, resolveMethod, n, host) == Failure(NoOutputFile))
        && (files != [] ==> Answer(name, resolveMethod, n, host) == Success(EsModule(name, Some(files[0]))))
  {
  }
}

=== FILE: fetch_headers.dfy ===
/**
  The Fetch standard's `Headers` object as the plugin uses it: an ordered list of
  (name, value) entries whose names are stored lower-cased, with `append`, `get`
  and `set` as the Fetch standard defines them (section 5.1 of the WHATWG Fetch Standard, "Headers class").
*/
module FetchHeaders {
  import opened Wrappers
  import opened Strings

  type HeaderList = seq<(string, string)>

  /** The values of the entries named exactly `k`, in list order. */
  function Matching(h: HeaderList, k: string): (r: seq<string>)
    ensures |r| <= |h|
    ensures |r| == 0 <==> forall i :: 0 <= i < |h| ==> h[i].0 != k
  {
    if h == [] then []
    else (if h[0].0 == k then [h[0].1] else []) + Matching(h[1..], k)
  }

  /** `headers.append(name, value)`: a new entry at the end, the name lower-cased. */
  function Append(h: HeaderList, name: string, value: string): (r: HeaderList)
    ensures |r| == |h| + 1 && r[..|h|] == h
    ensures Matching(r, Lower(name)) == Matching(h, Lower(name)) + [value]
    ensures forall k :: k != Lower(name) ==> Matching(r, k) == Matching(h, k)
  {
    MatchingConcat(h, [(Lower(name), value)]);
    h + [(Lower(name), value)]
  }

  lemma {:induction false} MatchingConcat(a: HeaderList, b: HeaderList)
    ensures forall k :: Matching(a + b, k) == Matching(a, k) + Matching(b, k)
  {
    if a == [] {
      assert a + b == b;
    } else {
      MatchingConcat(a[1..], b);
      assert (a + b)[1..] == a[1..] + b;
    }
  }

  /**
    `headers.get(name)`: null when no entry has the (case-insensitively equal)
    name, otherwise every matching value joined by ", ".
  */
  function Get(h: HeaderList, name: string): (r: Option<string>)
    ensures r.None? <==> forall i :: 0 <= i < |h| ==> h[i].0 != Lower(name)
    ensures Matching(h, Lower(name)) == [] ==> r.None?
    ensures forall v :: Matching(h, Lower(name)) == [v] ==> r == Some(v)
  {
    var vs := Matching(h, Lower(name));
    if vs == [] then None else Some(Join(vs, ", "))
  }

  /** All entries except those named `k`. */
  function RemoveAll(h: HeaderList, k: string): (r: HeaderList)
    ensures Matching(r, k) == []
    ensures forall m :: m != k ==> Matching(r, m) == Matching(h, m)
  {
    if h == [] then []
    else if h[0].0 == k then RemoveAll(h[1..], k)
    else [h[0]] + RemoveAll(h[1..], k)
  }

  /**
    `headers.set(name, value)`: the first entry with that name takes the new
    value and the later ones are removed; without one, the entry is appended.
  */
  function Set(h: HeaderList, name: string, value: string): (r: HeaderList)
    ensures Matching(r, Lower(name)) == [value]
    ensures forall m :: m != Lower(name) ==> Matching(r, m) == Matching(h, m)
  {
    SetLower(h, Lower(name), value)
  }

  function SetLower(h: HeaderList, k: string, value: string): (r: HeaderList)
    ensures Matching(r, k) == [value]
    ensures forall m :: m != k ==> Matching(r, m) == Matching(h, m)
  {
    if h == [] then [(k, value)]
    else if h[0].0 == k then [(k, value)] + RemoveAll(h[1..], k)
    else [h[0]] + SetLower(h[1..], k, value)
  }

  /** After `set`, `get` of the same name returns exactly the value set. */
  lemma SetThenGet(h: HeaderList, name: string, value: string)
    ensures Get(Set(h, name, value), name) == Some(value)
  {
  }
}

=== FILE: module_runner.dfy ===
/**
  The sandbox side, vitePlugin/miniflare_module.ts: the `ImportError` class, the
  error mapping of the module runner's two evaluators, and the default `fetch`
  entry that runs the handler module and classifies failures into 500 responses.
*/
module ModuleRunner {
  import opened Wrappers
  import opened Strings
  import opened FetchHeaders
  import opened WireAdapter
  import opened Protocol

  /** A value thrown inside the sandbox. */
  datatype Thrown =
    | ImportError(path: string)                                  // the plugin's own error class
    | Error(name: string, message: string, stack: Option<string>) // any other `Error`; `stack` when it has one
    | Str(s: string)                                             // a thrown string
    | Value(text: string)                                        // any other value, with its `String(v)`

  /** `e.name` of an `Error`; an `ImportError` is named "ImportError". */
  function ErrorName(e: Thrown): Option<string> {
    match e
    case ImportError(_) => Some("ImportError")
    case Error(name, _, _) => Some(name)
    case _ => None
  }

  /** `e.message` of an `Error`; an `ImportError`'s message is its path. */
  function ErrorMessage(e: Thrown): Option<string> {
    match e
    case ImportError(path) => Some(path)
    case Error(_, message, _) => Some(message)
    case _ => None
  }

  /** `ImportError.getPath()`. */
  function GetPath(e: Thrown): string
    requires e.ImportError?
  {
    e.path
  }

  /** `ImportError(path)` is named "ImportError", carries `path` as its message, and `getPath()` returns it. */
  lemma ImportErrorShape(path: string)
    ensures ErrorName(ImportError(path)) == Some("ImportError")
    ensures ErrorMessage(ImportError(path)) == Some(path)
    ensures GetPath(ImportError(path)) == path
  {
  }

  /** `Error.prototype.toString` (section 20.5.3.4 of ECMA-262). */
  function ErrorToString(name: string, message: string): (r: string)
    ensures StartsWith(r, name) && EndsWith(r, message)
    ensures |r| == |name| + |message| + (if name != "" && message != "" then 2 else 0)
    ensures name != "" && message != "" ==> r[|name|..|name| + 2] == ": "
  {
    if name == "" then message
    else if message == "" then name
    else name + ": " + message
  }

  /** `String(e)`. */
  function Describe(e: Thrown): (r: string)
    ensures e.ImportError? ==> StartsWith(r, "ImportError") && EndsWith(r, e.path)
  {
    match e
    case ImportError(path) => ErrorToString("ImportError", path)
    case Error(name, message, _) => ErrorToString(name, message)
    case Str(s) => s
    case Value(text) => text
  }

  /**
    The text of an `ImportError` is "ImportError: " followed by its path, from
    which the path can be read back; with an empty path it is just the name.
  */
  lemma ImportErrorText(path: string)
    ensures path != "" ==> Describe(ImportError(path)) == "ImportError: " + path
    ensures path != "" ==> DropPrefix(Describe(ImportError(path)), |"ImportError: "|) == path
    ensures path == "" ==> Describe(ImportError(path)) == "ImportError"
  {
    var r := Describe(ImportError(path));
    if path != "" {
      assert r[..11] == "ImportError";
      assert r[11..13] == ": ";
      assert r[13..] == path;
      assert r == r[..11] + r[11..13] + r[13..];
    }
  }

  /**
    The `.catch` of `runInlinedModule`: an `ImportError` is rethrown unchanged, any
    other `Error` with a stack is rethrown as the string of its stack, and anything
    else is rethrown as it is.
  */
  function MapInlinedError(e: Thrown): (r: Thrown)
    ensures r.ImportError? <==> e.ImportError?
    ensures e.ImportError? ==> r == e
    ensures e.Error? && e.stack.Some? ==> Describe(r) == e.stack.value && r.Str?
    ensures !(e.Error? && e.stack.Some?) ==> r == e
  {
    match e
    case Error(_, _, Some(stack)) => Str(stack)
    case _ => e
  }

  /** A module's export namespace and whether it has been frozen. */
  datatype Namespace = Namespace(exports: map<string, string>, frozen: bool)

  /**
    What running the compiled wrapper does: the exports it populated, and what it
    threw, if anything.
  */
  datatype Evaluation = Evaluation(exports: map<string, string>, thrown: Option<Thrown>)

  /**
    `__viteUnsafeEval.eval(code, id)`: either it throws while compiling, or it
    yields the wrapper function, which runs on an argument list.
  */
  type Evaluator = (string, string) -> Result<seq<string> -> Evaluation, Thrown>

  /** The context object handed to `runInlinedModule`, as its own keys in order with their values. */
  type Context = seq<(string, string)>

  predicate DistinctKeys(context: Context) {
    forall i, j :: 0 <= i < j < |context| ==> context[i].0 != context[j].0
  }

  /** `Object.keys(context)`. */
  function Keys(context: Context): (keys: seq<string>)
    ensures |keys| == |context|
    ensures forall i :: 0 <= i < |context| ==> keys[i] == context[i].0
  {
    seq(|context|, i requires 0 <= i < |context| => context[i].0)
  }

  /** `context[key]`. */
  function Lookup(context: Context, key: string): string
    requires exists i :: 0 <= i < |context| && context[i].0 == key
  {
    if context[0].0 == key then context[0].1 else Lookup(context[1..], key)
  }

  /** The source handed to the evaluator: an async arrow whose parameters are the keys. */
  function WrapperSource(keys: seq<string>, transformed: string): string {
    "'use strict';async(" + Join(keys, ",") + ")=>{" + transformed + "}"
  }

  /** `keys.map((key) => context[key])`. */
  function WrapperArgs(context: Context, keys: seq<string>): seq<string>
    requires forall i :: 0 <= i < |keys| ==> exists j :: 0 <= j < |context| && context[j].0 == keys[i]
  {
    seq(|keys|, i requires 0 <= i < |keys| => Lookup(context, keys[i]))
  }

  /**
    In a context with distinct keys, looking up the key at position `i` finds the
    value at position `i`.
  */
  lemma {:induction false} LookupAt(context: Context, i: nat)
    requires DistinctKeys(context)
    requires i < |context|
    ensures Lookup(context, context[i].0) == context[i].1
  {
    if i > 0 {
      assert context[0].0 != context[i].0;
      assert context[1..][i - 1] == context[i];
      LookupAt(context[1..], i - 1);
    }
  }

  /**
    The wrapper's parameter list and its argument list follow the same key order:
    reading the parameter list back gives the keys, and the `i`-th argument is the
    value stored under the `i`-th key.
  */
  lemma WrapperAligned(context: Context)
    requires DistinctKeys(context)
    requires |context| >= 1
    requires forall i :: 0 <= i < |context| ==> ',' !in context[i].0
    ensures Split(Join(Keys(context), ","), ',') == Keys(context)
    ensures |WrapperArgs(context, Keys(context))| == |Keys(context)|
    ensures forall i :: 0 <= i < |context| ==> WrapperArgs(context, Keys(context))[i] == context[i].1
  {
    SplitJoin(Keys(context), ',');
    forall i | 0 <= i < |context|
      ensures WrapperArgs(context, Keys(context))[i] == context[i].1
    {
      LookupAt(context, i);
    }
  }

  /**
    `runInlinedModule`: compiles the wrapper and calls it with the context's values
    in key order. The namespace is frozen exactly when nothing was thrown. What the
    call rejects with is passed through `MapInlinedError`; a compile error is thrown
    outside the `.catch` and escapes as it is, with no exports populated.
  */
  function RunInlinedModule(context: Context, transformed: string, id: string, eval: Evaluator): (r: (Namespace, Option<Thrown>))
    ensures r.0.frozen <==> r.1.None?
    ensures var compiled := eval(WrapperSource(Keys(context), transformed), id);
      && (compiled.Failure? ==> r == (Namespace(map[], false), Some(compiled.error)))
      && (compiled.Success? ==>
            var run := compiled.value(seq(|context|, i requires 0 <= i < |context| => context[i].1));
            && r.0.exports == run.exports
            && (r.1.Some? <==> run.thrown.Some?)
            && (r.1.Some? ==> r.1.value == MapInlinedError(run.thrown.value)))
  {
    var keys := Keys(context);
    match eval(WrapperSource(keys, transformed), id)
    case Failure(e) => (Namespace(map[], false), Some(e))
    case Success(fn) =>
      var args := seq(|context|, i requires 0 <= i < |context| => context[i].1);
      var run := fn(args);
      match run.thrown
      case None => (Namespace(run.exports, true), None)
      case Some(e) => (Namespace(run.exports, false), Some(MapInlinedError(e)))
  }

  /**
    A compile error escapes unmapped, even an `Error` with a stack, while the same
    value thrown by the call is rethrown as the string of its stack.
  */
  lemma CompileErrorEscapesUnmapped(context: Context, transformed: string, id: string, eval: Evaluator, e: Thrown)
    requires e.Error? && e.stack.Some?
    ensures eval(WrapperSource(Keys(context), transformed), id) == Failure(e) ==>
      RunInlinedModule(context, transformed, id, eval).1 == Some(e)
    ensures forall fn :: (eval(WrapperSource(Keys(context), transformed), id) == Success(fn) &&
                          fn(seq(|context|, i requires 0 <= i < |context| => context[i].1)).thrown == Some(e)) ==>
      RunInlinedModule(context, transformed, id, eval).1 == Some(Str(e.stack.value))
  {
  }

  /** An external module as `import()` yields it: its namespace and its `default` export's own properties. */
  datatype ExternalModule = ExternalModule(namespace: map<string, string>, defaultExport: Option<map<string, string>>)

  /** `import(filepath)`: the module, or `None` when the import rejects. */
  type Importer = string -> Option<ExternalModule>

  /**
    `runExternalModule`: a failed import becomes `ImportError(filepath)` for exactly
    the attempted path; otherwise the namespace merged with its `default`, whose
    keys take precedence.
  */
  function RunExternalModule(filepath: string, importer: Importer): (r: Result<map<string, string>, Thrown>)
    ensures r.Failure? <==> importer(filepath).None?
    ensures r.Failure? ==> r.error == ImportError(filepath)
    ensures r.Success? ==>
      var m := importer(filepath).value;
      var d := m.defaultExport.GetOr(map[]);
      && r.value.Keys == m.namespace.Keys + d.Keys
      && (forall k :: k in d ==> r.value[k] == d[k])
      && (forall k :: k in m.namespace && k !in d ==> r.value[k] == m.namespace[k])
  {
    match importer(filepath)
    case None => Failure(ImportError(filepath))
    case Some(m) => Success(m.namespace + m.defaultExport.GetOr(map[]))
  }

  /** What `handler.fetch(request, env, ctx)` does: return a response, throw, or return a promise that rejects. */
  datatype HandlerCall = Returns(response: SandboxResponse) | Throws(e: Thrown) | Rejects(reason: Thrown)

  /** The entry module's `default` export. */
  datatype Handler =
    | NoDefault                                  // `mod.default` is undefined
    | WithoutFetch                               // an object with no `fetch`
    | WithFetch(fetch: SandboxRequest -> HandlerCall)

  /** `runner.import(entry)` on the entry header's value: the default export, or what loading threw. */
  type EntryLoader = Option<string> -> Result<Handler, Thrown>

  /** How the `fetch` entry settles. */
  datatype FetchOutcome = Responds(response: SandboxResponse) | RejectsWith(reason: Thrown)

  const TextContentType := ("content-type", "text/plain;charset=UTF-8")

  /** The error reading `fetch` of an undefined default export throws. */
  const MissingDefault := Error("TypeError", "Cannot read properties of undefined (reading 'fetch')", None)

  /** The error thrown for a module with no `fetch` handler. */
  const MissingFetch := Error("Error", "Module does not have a fetch handler", None)

  /**
    The `catch` of the `fetch` entry: an `ImportError` becomes a 500 carrying its
    path in `x-request-bundle`; anything else a plain 500 with `String(e)` as body.
  */
  function FailureResponse(e: Thrown): (r: SandboxResponse)
    ensures r.status == 500
    ensures r.body == Some(Text(Describe(e)))
    ensures e.ImportError? ==> Get(r.headers, BundleHeader) == Some(e.path)
    ensures !e.ImportError? ==> Get(r.headers, BundleHeader) == None
  {
    FailureHeaders(if e.ImportError? then e.path else "");
    match e
    case ImportError(path) => SandboxResponse(500, "", [(BundleHeader, path), TextContentType], Some(Text(Describe(e))))
    case _ => SandboxResponse(500, "", [TextContentType], Some(Text(Describe(e))))
  }

  /** The two header lists `FailureResponse` answers with, read back through `get`. */
  lemma FailureHeaders(path: string)
    ensures Get([(BundleHeader, path), TextContentType], BundleHeader) == Some(path)
    ensures Get([TextContentType], BundleHeader) == None
  {
    BundleHeaderIsLower();
    assert TextContentType.0 != BundleHeader by {
      assert TextContentType.0[0] != BundleHeader[0];
    }
    assert Matching([TextContentType], BundleHeader) == [];
    assert Matching([(BundleHeader, path), TextContentType], BundleHeader) == [path] by {
      assert [(BundleHeader, path), TextContentType][1..] == [TextContentType];
    }
  }

  /** What the `try` block settles with when the handler call throws nothing before returning. */
  function Invoke(loaded: Result<Handler, Thrown>, request: SandboxRequest): Result<HandlerCall, Thrown>
  {
    match loaded
    case Failure(e) => Failure(e)
    case Success(NoDefault) => Failure(MissingDefault)
    case Success(WithoutFetch) => Failure(MissingFetch)
    case Success(WithFetch(f)) =>
      match f(request)
      case Throws(e) => Failure(e)
      case call => Success(call)
  }

  /** The `try` block of the `fetch` entry: load the module the entry header names and call its handler. */
  function Attempt(request: SandboxRequest, load: EntryLoader): Result<HandlerCall, Thrown>
  {
    Invoke(load(Get(request.headers, EntryHeader)), request)
  }

  /**
    The `fetch` entry as written: `return result;` hands back the handler's promise
    without awaiting it inside the `try`, so a promise that rejects escapes the
    `catch` and the entry rejects with its reason.
  */
  function FetchAsWritten(request: SandboxRequest, load: EntryLoader): (r: FetchOutcome)
    ensures forall e :: Attempt(request, load) == Failure(e) ==> r == Responds(FailureResponse(e))
    ensures forall e :: Attempt(request, load) == Success(Rejects(e)) ==> r == RejectsWith(e)
  {
    match Attempt(request, load)
    case Failure(e) => Responds(FailureResponse(e))
    case Success(Returns(response)) => Responds(response)
    case Success(Rejects(e)) => RejectsWith(e)
    case Success(Throws(e)) => Responds(FailureResponse(e))
  }

  /**
    A handler whose promise rejects with an `ImportError`: the entry as written
    rejects instead of answering with the escalation header.
  */
  lemma RejectionEscapes(request: SandboxRequest, path: string)
    ensures var load: EntryLoader := entry => Success(WithFetch(req => Rejects(ImportError(path))));
      FetchAsWritten(request, load) == RejectsWith(ImportError(path))
  {
    var load: EntryLoader := entry => Success(WithFetch(req => Rejects(ImportError(path))));
    assert Attempt(request, load) == Success(Rejects(ImportError(path)));
  }

  /**
    The `fetch` entry with the handler's promise awaited inside the `try`: it always
    responds; every failure, before or after the handler's promise settles, goes
    through the same `catch`.
  */
  function Fetch(request: SandboxRequest, load: EntryLoader): (r: SandboxResponse)
    ensures forall e :: Attempt(request, load) == Failure(e) ==> r == FailureResponse(e)
    ensures forall e :: Attempt(request, load) == Success(Rejects(e)) ==> r == FailureResponse(e)
    ensures forall resp :: Attempt(request, load) == Success(Returns(resp)) ==> r == resp
  {
    match Attempt(request, load)
    case Failure(e) => FailureResponse(e)
    case Success(Returns(response)) => response
    case Success(Rejects(e)) => FailureResponse(e)
    case Success(Throws(e)) => FailureResponse(e)
  }

  /** Where the entry as written responds at all, the corrected entry responds the same way. */
  lemma FetchAgreesWhenResponding(request: SandboxRequest, load: EntryLoader)
    ensures FetchAsWritten(request, load).Responds? ==> Fetch(request, load) == FetchAsWritten(request, load).response
    ensures FetchAsWritten(request, load).RejectsWith? ==> Fetch(request, load) == FailureResponse(FetchAsWritten(request, load).reason)
  {
    match Attempt(request, load)
    case Failure(e) =>
    case Success(call) =>
  }

  /**
    A module with no `fetch` handler, or no default export at all, is answered with
    a plain 500 and no escalation header.
  */
  lemma MissingHandlerIsPlain500(request: SandboxRequest, load: EntryLoader)
    requires load(Get(request.headers, EntryHeader)) in {Success(NoDefault), Success(WithoutFetch)}
    ensures Fetch(request, load).status == 500
    ensures Get(Fetch(request, load).headers, BundleHeader) == None
  {
    var e := if load(Get(request.headers, EntryHeader)) == Success(NoDefault) then MissingDefault else MissingFetch;
    assert Attempt(request, load) == Failure(e);
  }

  /**
    Through both evaluators: a failed external import inside an inlined module
    reaches the `fetch` entry as `ImportError` for the attempted path, and is
    answered with that path in `x-request-bundle`.
  */
  lemma ExternalImportFailureEscalates(filepath: string, importer: Importer)
    requires importer(filepath).None?
    ensures var e := MapInlinedError(RunExternalModule(filepath, importer).error);
      e == ImportError(filepath) && Get(FailureResponse(e).headers, BundleHeader) == Some(filepath)
  {
  }
}

=== FILE: node_path.dfy ===
/**
  Node's POSIX `path.dirname`, which the package-name walk applies repeatedly.
  A path is a string; `/` is the only separator.
*/
module NodePath {
  import opened Wrappers

  /**
    Scanning from index `i` down to 1, the first `/` that follows a non-`/`
    character (trailing separators are skipped while `matchedSlash` holds).
  */
  function LastSeparator(p: string, i: int, matchedSlash: bool): (r: Option<nat>)
    requires 0 <= i < |p|
    requires !matchedSlash ==> exists j :: i < j < |p| && p[j] != '/'
    ensures r.Some? ==> 1 <= r.value <= i && p[r.value] == '/'
    ensures r.Some? ==> exists j :: r.value < j < |p| && p[j] != '/'
    decreases i
  {
    if i < 1 then None
    else if p[i] == '/' then
      (if !matchedSlash then Some(i) else LastSeparator(p, i - 1, true))
    else
      var r := LastSeparator(p, i - 1, false);
      assert r.Some? ==> r.value < i && p[i] != '/';
      r
  }

  /** Node's `path.posix.dirname`. */
  function Dirname(p: string): (r: string)
    ensures r != ""
    ensures r == "." || r == "/" || (|r| < |p| && r == p[..|r|])
  {
    if |p| == 0 then "."
    else
      var hasRoot := p[0] == '/';
      match LastSeparator(p, |p| - 1, true)
      case None => if hasRoot then "/" else "."
      case Some(end) =>
        if hasRoot && end == 1 then (assert p[..2] == "//"; "//") else p[..end]
  }

  /**
    Scanning down from `i` over non-`/` characters, the first `/` found is the one
    at `k`.
  */
  lemma {:induction false} LastSeparatorFinds(p: string, k: nat, i: int, matchedSlash: bool)
    requires 1 <= k <= i < |p|
    requires p[k] == '/'
    requires forall j :: k < j <= i ==> p[j] != '/'
    requires matchedSlash ==> k < i
    requires !matchedSlash ==> exists j :: i < j < |p| && p[j] != '/'
    ensures LastSeparator(p, i, matchedSlash) == Some(k)
    decreases i
  {
    if i > k {
      assert p[i] != '/';
      LastSeparatorFinds(p, k, i - 1, false);
    }
  }

  /**
    `dirname` is the inverse of joining a directory and a file name: for a name
    without separators, `dirname(d + "/" + name)` is `d`, provided `d` does not
    end in a separator.
  */
  lemma DirnameChild(d: string, name: string)
    requires name != "" && '/' !in name
    requires d != "" && d[|d| - 1] != '/'
    ensures Dirname(d + "/" + name) == d
  {
    var p := d + "/" + name;
    assert p[|d|] == '/';
    assert forall j :: |d| < j < |p| ==> p[j] == name[j - |d| - 1];
    LastSeparatorFinds(p, |d|, |p| - 1, true);
    assert p[..|d|] == d;
    if |d| == 1 {
      assert p[0] == d[0];
    }
  }

  /** A name directly below the root has "/" as its directory. */
  lemma DirnameRootChild(name: string)
    requires name != "" && '/' !in name
    ensures Dirname("/" + name) == "/"
  {
    var q := "/" + name;
    assert forall j :: 1 <= j < |q| ==> q[j] == name[j - 1];
    LastSeparatorNoneFrom(q, |q| - 1, true);
  }

  /** With no `/` in `1..i`, the scan (which stops at index 1) finds nothing. */
  lemma {:induction false} LastSeparatorNoneFrom(p: string, i: int, matchedSlash: bool)
    requires 0 <= i < |p|
    requires !matchedSlash ==> exists j :: i < j < |p| && p[j] != '/'
    requires forall j :: 1 <= j <= i ==> p[j] != '/'
    ensures LastSeparator(p, i, matchedSlash) == None
    decreases i
  {
    if i >= 1 {
      assert p[i] != '/';
      LastSeparatorNoneFrom(p, i - 1, false);
    }
  }

  /** A path without separators has "." as its directory. */
  lemma DirnameOfPlainName(name: string)
    requires name != "" && '/' !in name
    ensures Dirname(name) == "."
  {
    LastSeparatorNoneFrom(name, |name| - 1, true);
  }

  /** A measure that every step up the directory tree lowers, until a fixed point. */
  function Rank(p: string): nat {
    2 * |p| + (if p == "." then 0 else 1)
  }

  /** `dirname` either stays put (at "/" or ".") or strictly lowers `Rank`. */
  lemma DirnameClimbs(p: string)
    requires p != ""
    ensures Dirname(p) == p || Rank(Dirname(p)) < Rank(p)
  {
  }

  /** The directory reached after `k` steps up from `p`. */
  function Ancestor(p: string, k: nat): string
    decreases k
  {
    if k == 0 then p else Ancestor(Dirname(p), k - 1)
  }
}

=== FILE: package_name.dfy ===
/**
  `getPackageName` of vitePlugin/index.ts: from the directory of a module path,
  walk up the directory tree and report the `name` of the nearest `package.json`,
  giving up when the next parent would be the working directory.
*/
module PackageName {
  import opened Wrappers
  import opened NodePath

  /** What `JSON.parse` makes of a directory's package.json. */
  datatype Manifest = Manifest(name: Option<string>) | Malformed

  /** The filesystem as the walk sees it: directory to its package.json, if any. */
  type Manifests = string -> Option<Manifest>

  /** How a walk ends. */
  datatype Lookup =
    | Found(name: Option<string>)  // the nearest manifest's `name` field (possibly absent)
    | ParseError(dir: string)      // `JSON.parse` threw on the manifest in `dir`
    | ReachedCwd                   // the next parent is the working directory: `null`
    | ReachedRoot                  // the walk hit the top of the tree: `null`
    | Spins                        // the loop revisits the same directory forever

  /** The answer the walk gives once it consults the manifest entry `m`. */
  function Consult(m: Option<Manifest>, dir: string): Lookup
    requires m.Some?
  {
    match m.value
    case Manifest(n) => Found(n)
    case Malformed => ParseError(dir)
  }

  /**
    The `while (true)` loop, starting at `dir`. At a `dirname` fixed point that is
    not the working directory the source loop never exits; that outcome is `Spins`.
  */
  function WalkUp(dir: string, cwd: string, manifests: Manifests): (r: Lookup)
    requires dir != ""
    ensures r != ReachedRoot
    ensures r.Found? ==> exists d :: manifests(d) == Some(Manifest(r.name))
    decreases Rank(dir)
  {
    if manifests(dir).Some? then Consult(manifests(dir), dir)
    else
      var parent := Dirname(dir);
      if parent == cwd then ReachedCwd
      else if parent == dir then Spins
      else
        DirnameClimbs(dir);
        WalkUp(parent, cwd, manifests)
  }

  /** The lookup exactly as written: it may spin forever. */
  function GetPackageNameAsWritten(specifier: string, cwd: string, manifests: Manifests): (r: Lookup)
    ensures manifests(Dirname(specifier)).Some? ==> r == Consult(manifests(Dirname(specifier)), Dirname(specifier))
    ensures r != ReachedRoot
  {
    WalkUp(Dirname(specifier), cwd, manifests)
  }

  /**
    The lookup with the loop stopped at the top of the tree, reporting `null`
    there instead of spinning; elsewhere it answers as the source does.
  */
  function GetPackageName(specifier: string, cwd: string, manifests: Manifests): (r: Lookup)
    ensures r != Spins
    ensures GetPackageNameAsWritten(specifier, cwd, manifests) != Spins ==>
              r == GetPackageNameAsWritten(specifier, cwd, manifests)
    ensures GetPackageNameAsWritten(specifier, cwd, manifests) == Spins ==> r == ReachedRoot
    ensures r.Found? ==> exists d :: manifests(d) == Some(Manifest(r.name))
  {
    var r := WalkUp(Dirname(specifier), cwd, manifests);
    if r == Spins then ReachedRoot else r
  }

  lemma {:induction false} AncestorOfFixedPoint(d: string, k: nat)
    requires Dirname(d) == d
    ensures Ancestor(d, k) == d
  {
    if k > 0 {
      AncestorOfFixedPoint(d, k - 1);
    }
  }

  /**
    The walk answers from the nearest manifest: when directories `Ancestor(d, 0..k-1)`
    have none and none of their parents is the working directory, the manifest of
    `Ancestor(d, k)` decides.
  */
  lemma {:induction false} WalkUpNearest(d: string, cwd: string, manifests: Manifests, k: nat)
    requires d != ""
    requires forall j :: 0 <= j < k ==> manifests(Ancestor(d, j)).None?
    requires forall j :: 0 < j <= k ==> Ancestor(d, j) != cwd
    requires manifests(Ancestor(d, k)).Some?
    ensures WalkUp(d, cwd, manifests) == Consult(manifests(Ancestor(d, k)), Ancestor(d, k))
    decreases k
  {
    if k > 0 {
      assert manifests(Ancestor(d, 0)).None?;
      var parent := Dirname(d);
      assert Ancestor(d, 1) == parent;
      if parent == d {
        AncestorOfFixedPoint(d, k);
        assert false;
      }
      DirnameClimbs(d);
      forall j | 0 <= j < k - 1
        ensures manifests(Ancestor(parent, j)).None?
      {
        assert Ancestor(d, j + 1) == Ancestor(parent, j);
      }
      forall j | 0 < j <= k - 1
        ensures Ancestor(parent, j) != cwd
      {
        assert Ancestor(d, j + 1) == Ancestor(parent, j);
      }
      assert Ancestor(d, k) == Ancestor(parent, k - 1);
      WalkUpNearest(parent, cwd, manifests, k - 1);
    }
  }

  /**
    The working directory's own package.json is never read: when the walk climbs
    to the working directory without meeting a manifest, it answers `null`
    whatever the working directory holds.
  */
  lemma {:induction false} CwdManifestNeverRead(d: string, cwd: string, manifests: Manifests, k: nat)
    requires d != ""
    requires 0 < k && Ancestor(d, k) == cwd
    requires forall j :: 0 <= j < k ==> manifests(Ancestor(d, j)).None?
    ensures WalkUp(d, cwd, manifests) == ReachedCwd
    decreases k
  {
    assert manifests(Ancestor(d, 0)).None?;
    var parent := Dirname(d);
    assert Ancestor(d, 1) == parent;
    if parent != cwd {
      if parent == d {
        AncestorOfFixedPoint(d, k);
        assert false;
      }
      DirnameClimbs(d);
      forall j | 0 <= j < k - 1
        ensures manifests(Ancestor(parent, j)).None?
      {
        assert Ancestor(d, j + 1) == Ancestor(parent, j);
      }
      assert Ancestor(d, k) == Ancestor(parent, k - 1);
      CwdManifestNeverRead(parent, cwd, manifests, k - 1);
    }
  }

  /**
    A specifier without a separator (a bare package name or "node:fs") starts the
    walk at ".", so the manifest found under "." answers, in both versions of the
    lookup, whatever the working directory is called.
  */
  lemma RelativeSpecifierReadsDot(specifier: string, cwd: string, manifests: Manifests, m: Manifest)
    requires specifier != "" && '/' !in specifier
    requires manifests(".") == Some(m)
    ensures GetPackageNameAsWritten(specifier, cwd, manifests) == Consult(Some(m), ".")
    ensures GetPackageName(specifier, cwd, manifests) == Consult(Some(m), ".")
  {
    DirnameOfPlainName(specifier);
  }

  /**
    When the working directory is a proper ancestor of the starting directory,
    the loop as written always returns.
  */
  lemma {:induction false} WalkUpTerminatesUnderCwd(d: string, cwd: string, manifests: Manifests, k: nat)
    requires d != ""
    requires 0 < k && Ancestor(d, k) == cwd
    ensures WalkUp(d, cwd, manifests) != Spins
    decreases k
  {
    if manifests(d).None? {
      var parent := Dirname(d);
      assert Ancestor(d, 1) == parent;
      if parent != cwd {
        if parent == d {
          AncestorOfFixedPoint(d, k);
          assert false;
        }
        DirnameClimbs(d);
        assert Ancestor(d, k) == Ancestor(parent, k - 1);
        WalkUpTerminatesUnderCwd(parent, cwd, manifests, k - 1);
      }
    }
  }

  /**
    A module path outside the working directory with no package.json anywhere
    above it: the loop as written never returns.
  */
  lemma SpinsOutsideCwd()
    ensures GetPackageNameAsWritten("/tmp/x.js", "/proj", d => None) == Spins
    ensures GetPackageName("/tmp/x.js", "/proj", d => None) == ReachedRoot
  {
    var p := "/tmp/x.js";
    assert p[4] == '/' && p[5] == 'x' && p[6] == '.' && p[7] == 'j' && p[8] == 's';
    assert LastSeparator(p, 4, false) == Some(4);
    assert LastSeparator(p, 8, true) == Some(4);
    assert Dirname(p) == "/tmp";
    var q := "/tmp";
    assert q[1] != '/';
    assert LastSeparator(q, 0, false) == None;
    assert LastSeparator(q, 3, true) == None;
    assert Dirname(q) == "/";
    assert Dirname("/") == "/";
  }
}

=== FILE: protocol.dfy ===
/** The header names the host and the sandbox agree on. */
module Protocol {
  import opened Strings

  /** Set by the sandbox on an import failure; names the module path to inline. */
  const BundleHeader: string := "x-request-bundle"

  /** Set by the host on every request; names the handler module to run. */
  const EntryHeader: string := "x-vite-entry"

  lemma BundleHeaderIsLower()
    ensures Lower(BundleHeader) == BundleHeader
  {
    var s := BundleHeader;
    assert s == ['x','-','r','e','q','u','e','s','t','-','b','u','n','d','l','e'];
    forall i | 0 <= i < |s| ensures !('A' <= s[i] <= 'Z') {
    }
    LowerUnchanged(s);
  }

  lemma EntryHeaderIsLower()
    ensures Lower(EntryHeader) == EntryHeader
  {
    var s := EntryHeader;
    assert s == ['x','-','v','i','t','e','-','e','n','t','r','y'];
    forall i | 0 <= i < |s| ensures !('A' <= s[i] <= 'Z') {
    }
    LowerUnchanged(s);
  }
}

=== FILE: strings.dfy ===
/** String helpers with the semantics of the JavaScript `String` methods the plugin calls. */
module Strings {

  /** `s.startsWith(p)` */
  predicate StartsWith(s: string, p: string) {
    |p| <= |s| && s[..|p|] == p
  }

  /** `s.endsWith(p)` */
  predicate EndsWith(s: string, p: string) {
    |p| <= |s| && s[|s| - |p|..] == p
  }

  /** `s[0] === c`: false on the empty string, where `s[0]` is `undefined`. */
  predicate FirstIs(s: string, c: char) {
    |s| > 0 && s[0] == c
  }

  /** `s.substring(n)` for the literal prefix lengths the plugin uses. */
  function DropPrefix(s: string, n: nat): (r: string)
    requires n <= |s|
    ensures |r| == |s| - n
    ensures s == s[..n] + r
  {
    s[n..]
  }

  /** ASCII lower-casing, as Fetch `Headers` applies to header names. */
  function LowerChar(c: char): (r: char)
    ensures 'A' <= c <= 'Z' ==> r as int == c as int + 32
    ensures !('A' <= c <= 'Z') ==> r == c
  {
    if 'A' <= c <= 'Z' then (c as int + 32) as char else c
  }

  function Lower(s: string): (r: string)
    ensures |r| == |s|
    ensures forall i :: 0 <= i < |s| ==> r[i] == LowerChar(s[i])
  {
    seq(|s|, i requires 0 <= i < |s| => LowerChar(s[i]))
  }

  /** Lower-casing leaves a string with no upper-case ASCII letter unchanged. */
  lemma LowerUnchanged(s: string)
    requires forall i :: 0 <= i < |s| ==> !('A' <= s[i] <= 'Z')
    ensures Lower(s) == s
  {
  }

  /** `xs.join(sep)` */
  function Join(xs: seq<string>, sep: string): string
  {
    if |xs| == 0 then ""
    else if |xs| == 1 then xs[0]
    else xs[0] + sep + Join(xs[1..], sep)
  }

  /** `s.split(sep)` for a one-character separator: always at least one piece. */
  function Split(s: string, sep: char): (r: seq<string>)
    ensures |r| >= 1
    ensures forall i :: 0 <= i < |r| ==> sep !in r[i]
    decreases |s|
  {
    if sep !in s then [s]
    else
      var k := IndexOf(s, sep);
      [s[..k]] + Split(s[k + 1..], sep)
  }

  /** Index of the first occurrence of `c` in `s`. */
  function IndexOf(s: string, c: char): (k: nat)
    requires c in s
    ensures k < |s| && s[k] == c
    ensures c !in s[..k]
  {
    if s[0] == c then 0 else 1 + IndexOf(s[1..], c)
  }

  /** Splitting at the first separator: the piece before it, then the split of the rest. */
  lemma SplitAtFirst(a: string, sep: char, b: string)
    requires sep !in a
    ensures Split(a + [sep] + b, sep) == [a] + Split(b, sep)
  {
    var s := a + [sep] + b;
    IndexOfFirst(a, sep, b);
    assert s[..|a|] == a;
    assert s[|a| + 1..] == b;
  }

  /** `Split` undoes `Join` whenever no piece contains the separator. */
  lemma {:induction false} SplitJoin(xs: seq<string>, sep: char)
    requires |xs| >= 1
    requires forall i :: 0 <= i < |xs| ==> sep !in xs[i]
    ensures Split(Join(xs, [sep]), sep) == xs
  {
    if |xs| > 1 {
      assert sep !in xs[0];
      SplitAtFirst(xs[0], sep, Join(xs[1..], [sep]));
      SplitJoin(xs[1..], sep);
      assert [xs[0]] + xs[1..] == xs;
    }
  }

  lemma IndexOfFirst(a: string, sep: char, b: string)
    requires sep !in a
    ensures sep in a + [sep] + b
    ensures IndexOf(a + [sep] + b, sep) == |a|
  {
    var s := a + [sep] + b;
    assert s[|a|] == sep;
    assert s[..|a|] == a;
  }

  /** `s.replaceAll(from, to)` for single characters. */
  function ReplaceAll(s: string, from: char, to: char): (r: string)
    ensures |r| == |s|
    ensures forall i :: 0 <= i < |s| ==> r[i] == (if s[i] == from then to else s[i])
  {
    if s == [] then [] else [if s[0] == from then to else s[0]] + ReplaceAll(s[1..], from, to)
  }

  /** After replacing `from` by a different character, no `from` remains. */
  lemma ReplaceAllRemoves(s: string, from: char, to: char)
    requires from != to
    ensures from !in ReplaceAll(s, from, to)
  {
    var r := ReplaceAll(s, from, to);
    assert forall i :: 0 <= i < |r| ==> r[i] != from;
  }
}

=== FILE: wire_adapter.dfy ===
/**
  `toRequest` and `toResponse` of vitePlugin/index.ts: translation between Node's
  `IncomingMessage`/`ServerResponse` and the sandbox's Fetch `Request`/`Response`.
  Bodies are byte sequences; streaming and backpressure are not modelled.
*/
module WireAdapter {
  import opened Wrappers
  import opened Strings
  import opened FetchHeaders

  newtype byte = b: int | 0 <= b < 256

  /** A value of Node's `IncomingMessage.headers` object. */
  datatype HostHeaderValue = One(s: string) | Many(items: seq<string>) | Undefined

  /** Node's incoming request: `verb` is `method`; then `originalUrl`, the headers object in key order, the body. */
  datatype HostRequest = HostRequest(
    verb: string,
    originalUrl: string,
    headers: seq<(string, HostHeaderValue)>,
    body: seq<byte>)

  /** A Fetch body, as given to the `Response` constructor. */
  datatype Body = Bytes(data: seq<byte>) | Text(text: string)

  /** The sandbox's Fetch `Request`; `halfDuplex` is the `duplex: "half"` init flag. */
  datatype SandboxRequest = SandboxRequest(
    url: string,
    verb: string,
    headers: HeaderList,
    body: Option<seq<byte>>,
    halfDuplex: bool)

  /** The sandbox's Fetch `Response`; `body` is `null` or a stream of the given contents. */
  datatype SandboxResponse = SandboxResponse(
    status: int,
    statusText: string,
    headers: HeaderList,
    body: Option<Body>)

  /**
    What Node's `ServerResponse` ends up sending: status line, headers, and
    either the piped body or `None` when the sink was ended with no body.
  */
  datatype HostResponse = HostResponse(
    status: int,
    statusMessage: string,
    headers: HeaderList,
    body: Option<Body>)

  /** A parsed URL: its serialisation and its userinfo. */
  datatype ParsedUrl = ParsedUrl(href: string, username: string, password: string)

  /**
    A URL includes credentials when its username or password is non-empty, as the
    WHATWG URL Standard defines it.
  */
  predicate IncludesCredentials(u: ParsedUrl) {
    u.username != "" || u.password != ""
  }

  /** `new URL(input, base)`: the parsed URL, or `None` where the constructor throws. */
  type UrlParser = (string, string) -> Option<ParsedUrl>

  /** Node's default reason phrase for a status code (`STATUS_CODES[code] || "unknown"`). */
  type ReasonPhrases = int -> string

  /**
    What `toRequest` throws: `new URL` rejects the URL, or `new Request` rejects a
    URL with credentials or a forbidden method.
  */
  datatype AdapterError =
    | InvalidUrl(input: string, base: string)
    | Credentials(href: string)
    | ForbiddenMethod(verb: string)

  /** Property lookup `headers[key]` on Node's headers object. */
  function HostHeader(h: seq<(string, HostHeaderValue)>, key: string): (r: HostHeaderValue)
    ensures r != Undefined ==> exists i :: 0 <= i < |h| && h[i] == (key, r)
  {
    if h == [] then Undefined
    else if h[0].0 == key then h[0].1
    else HostHeader(h[1..], key)
  }

  /** JavaScript truthiness of a header value. */
  predicate Truthy(v: HostHeaderValue) {
    match v
    case One(s) => s != ""
    case Many(_) => true
    case Undefined => false
  }

  /** `${v}`: what a template literal makes of a header value. */
  function Stringify(v: HostHeaderValue): string {
    match v
    case One(s) => s
    case Many(items) => Join(items, ",")
    case Undefined => "undefined"
  }

  /** The base URL `toRequest` builds the request URL against. */
  function Origin(h: seq<(string, HostHeaderValue)>): string
  {
    var origin := HostHeader(h, "origin");
    if Truthy(origin) && origin != One("null") then Stringify(origin)
    else "http://" + Stringify(HostHeader(h, "host"))
  }

  /**
    The origin is the Origin header when it is present, non-empty and not the
    literal "null"; otherwise it is "http://" followed by the Host header.
  */
  lemma OriginRule(h: seq<(string, HostHeaderValue)>, host: string)
    requires HostHeader(h, "host") == One(host)
    ensures forall s :: HostHeader(h, "origin") == One(s) && s != "" && s != "null" ==> Origin(h) == s
    ensures HostHeader(h, "origin") in {Undefined, One(""), One("null")} ==> Origin(h) == "http://" + host
  {
  }

  /** The values a host header contributes, as separate strings. */
  function Items(v: HostHeaderValue): seq<string> {
    match v
    case One(s) => [s]
    case Many(items) => items
    case Undefined => []
  }

  /** Every host value recorded under names that lower-case to `k`, in key order. */
  function HostValues(h: seq<(string, HostHeaderValue)>, k: string): seq<string>
  {
    if h == [] then []
    else
      var last := h[|h| - 1];
      HostValues(h[..|h| - 1], k) + (if Lower(last.0) == k then Items(last.1) else [])
  }

  /** `headers.append` once per element, in order. */
  function AppendEach(h: HeaderList, name: string, values: seq<string>): (r: HeaderList)
    ensures |r| == |h| + |values|
    ensures Matching(r, Lower(name)) == Matching(h, Lower(name)) + values
    ensures forall k :: k != Lower(name) ==> Matching(r, k) == Matching(h, k)
    decreases |values|
  {
    if values == [] then h
    else
      var r := AppendEach(Append(h, name, values[0]), name, values[1..]);
      assert [values[0]] + values[1..] == values;
      r
  }

  /**
    The `reduce` over `Object.entries(nodeReq.headers)`: an array value gives one
    append per element, a string one append, anything else nothing. Reading any
    name back yields exactly the host values for it, in order.
  */
  function FlattenHeaders(h: seq<(string, HostHeaderValue)>): (r: HeaderList)
    ensures forall k :: Matching(r, k) == HostValues(h, k)
  {
    if h == [] then []
    else
      var last := h[|h| - 1];
      var r := AppendEach(FlattenHeaders(h[..|h| - 1]), last.0, Items(last.1));
      assert forall k :: Matching(r, k) == HostValues(h, k) by {
        forall k ensures Matching(r, k) == HostValues(h, k) {
          if Lower(last.0) == k {
          } else {
          }
        }
      }
      r
  }

  /** A string header reads back as itself; an array header as its elements joined by ", ". */
  lemma FlattenReadBack(h: seq<(string, HostHeaderValue)>, name: string)
    requires HostValues(h, Lower(name)) != []
    ensures Get(FlattenHeaders(h), name) == Some(Join(HostValues(h, Lower(name)), ", "))
  {
  }

  /** Whether `toRequest` attaches the incoming stream as the body. */
  predicate CarriesBody(verb: string) {
    verb != "GET" && verb != "HEAD"
  }

  /**
    A forbidden method of the Fetch standard (section 2.2.1): CONNECT, TRACE or
    TRACK in any letter case. The `Request` constructor throws a `TypeError` for one.
  */
  predicate IsForbiddenMethod(verb: string) {
    Lower(verb) in {"connect", "trace", "track"}
  }

  /**
    `toRequest`: the URL is the original URL resolved against the origin, headers
    are flattened, and the body (with half duplex) is attached exactly when the
    method is neither GET nor HEAD. A URL the parser rejects is an error; so, once
    the URL is built, are credentials in it (the `Request` constructor checks those
    first) and then a forbidden method.
  */
  function ToRequest(req: HostRequest, parseUrl: UrlParser): (r: Result<SandboxRequest, AdapterError>)
    ensures parseUrl(req.originalUrl, Origin(req.headers)).None? ==>
      r == Failure(InvalidUrl(req.originalUrl, Origin(req.headers)))
    ensures (parseUrl(req.originalUrl, Origin(req.headers)).Some? &&
             IncludesCredentials(parseUrl(req.originalUrl, Origin(req.headers)).value)) ==>
      r == Failure(Credentials(parseUrl(req.originalUrl, Origin(req.headers)).value.href))
    ensures (parseUrl(req.originalUrl, Origin(req.headers)).Some? &&
             !IncludesCredentials(parseUrl(req.originalUrl, Origin(req.headers)).value) &&
             IsForbiddenMethod(req.verb)) ==>
      r == Failure(ForbiddenMethod(req.verb))
    ensures r.Success? <==>
      && parseUrl(req.originalUrl, Origin(req.headers)).Some?
      && !IncludesCredentials(parseUrl(req.originalUrl, Origin(req.headers)).value)
      && !IsForbiddenMethod(req.verb)
    ensures r.Success? ==>
      && r.value.url == parseUrl(req.originalUrl, Origin(req.headers)).value.href
      && r.value.verb == req.verb
      && (forall k :: Matching(r.value.headers, k) == HostValues(req.headers, k))
      && (r.value.body.Some? <==> CarriesBody(req.verb))
      && (r.value.halfDuplex <==> CarriesBody(req.verb))
      && (r.value.body.Some? ==> r.value.body.value == req.body)
  {
    var origin := Origin(req.headers);
    match parseUrl(req.originalUrl, origin)
    case None => Failure(InvalidUrl(req.originalUrl, origin))
    case Some(parsed) =>
      var url := parsed.href;
      var headers := FlattenHeaders(req.headers);
      if IncludesCredentials(parsed) then
        Failure(Credentials(url))
      else if IsForbiddenMethod(req.verb) then
        Failure(ForbiddenMethod(req.verb))
      else if CarriesBody(req.verb) then
        Success(SandboxRequest(url, req.verb, headers, Some(req.body), true))
      else
        Success(SandboxRequest(url, req.verb, headers, None, false))
  }

  /** The status message Node sends: the one set, or the default phrase when it is empty. */
  function StatusMessage(statusText: string, status: int, reasons: ReasonPhrases): string {
    if statusText != "" then statusText else reasons(status)
  }

  /**
    `toResponse` as written: `Object.entries(res.headers.entries())` enumerates
    the own properties of an iterator object, which has none, so `writeHead`
    receives an empty header array and no response header reaches Node.
  */
  function ToResponseAsWritten(res: SandboxResponse, reasons: ReasonPhrases): (r: HostResponse)
    ensures r.status == res.status
    ensures res.statusText != "" ==> r.statusMessage == res.statusText
    ensures res.statusText == "" ==> r.statusMessage == reasons(res.status)
    ensures r.headers == []
    ensures r.body == res.body
  {
    HostResponse(res.status, StatusMessage(res.statusText, res.status, reasons), [], res.body)
  }

  /** A redirect's Location header is lost by `toResponse` as written. */
  lemma ToResponseDropsLocation(reasons: ReasonPhrases)
    ensures var res := SandboxResponse(302, "Found", [("location", "/login")], None);
      && Get(res.headers, "Location") == Some("/login")
      && Get(ToResponseAsWritten(res, reasons).headers, "Location") == None
  {
    assert Lower("Location") == "location";
  }

  /**
    `toResponse` with the headers handed over: status and status text are copied,
    every header name carries the same values, and the sink is ended at once when
    there is no body, or receives the body otherwise.
  */
  function ToResponse(res: SandboxResponse, reasons: ReasonPhrases): (r: HostResponse)
    ensures r.status == res.status
    ensures res.statusText != "" ==> r.statusMessage == res.statusText
    ensures res.statusText == "" ==> r.statusMessage == reasons(res.status)
    ensures forall k :: Matching(r.headers, k) == Matching(res.headers, k)
    ensures forall name :: Get(r.headers, name) == Get(res.headers, name)
    ensures r.body.None? <==> res.body.None?
    ensures r.body.Some? ==> r.body == res.body
  {
    HostResponse(res.status, StatusMessage(res.statusText, res.status, reasons), res.headers, res.body)
  }
}

=== FILE: wrappers.dfy ===
/** Failure-compatible wrappers used for the source's nullable values and thrown errors. */
module Wrappers {

  /** A value that may be absent: JavaScript's `null`/`undefined` or a missing entry. */
  datatype Option<+T> = None | Some(value: T) {

    /** Returns the value in Some, or the default for None. */
    function GetOr(default: T): T {
      match this
      case Some(v) => v
      case None => default
    }
  }

  /** Either a computed value or the error the source would throw. */
  datatype Result<+R, +E> = Success(value: R) | Failure(error: E) {

    predicate IsFailure() {
      Failure?
    }

    function PropagateFailure<U>(): Result<U, E>
      requires Failure?
    {
      Failure(error)
    }

    function Extract(): R
      requires Success?
    {
      value
    }
  }
}
